=== FILE: README.md ===
# Discord bot core: custom-command registry, message tracking, voice-channel lifecycle

This project is a Dafny model of the two stateful parts of the Discord bot in
`Discord-BOT/`:

* **The per-guild custom-command registry** (`features/customCommands.js`).
  A process-wide cache maps each guild to its `name -> reply` commands. It sits
  in front of one file per guild. The registry is made of:
  `getCommands` and `saveCommands`; the three mutating commands `addCommand`,
  `editCommand` and `removeCommand`; the case-insensitive lookup
  `processCustomCommand`; the listing `helpCommand`; the tokenizer and
  dispatcher of `handleCommand`; and the clean-up `clearBotMessages`.
* **The two event handlers of `index.js`.** `MessageCreate` decides which
  message ids enter `botMessages` and `userCommandMessages`.
  `VoiceStateUpdate` provisions a personal voice channel when a member enters
  the lobby channel, and tears down a provisioned channel that someone leaves
  when exactly one member is left in it.

Every handler is a pure function. It takes the state and the event and returns
the new state and what the bot answers. Each call to the outside world becomes
an input:

* whether a file read or write succeeds (`Registry.Io`);
* the fetched history and whether the fetch and the bulk delete succeed (`Tracker.ClearIo`);
* the id of the created channel and whether the move and the delete succeed (`Voice.VoiceIo`);
* the dialogue engine's answer and the ids of posted replies (`Dispatch.Env`).

A throw that reaches the handler is `Outcome.Threw`.

Modules:

| module | file | models |
|---|---|---|
| `Types` | types.dfy | ids, `Option`, `Outcome` (returned value or thrown) |
| `Text` | text.dfy | `toLowerCase` (ASCII), `trim`, `split(/ +/)`, `split('\n')`, `join` |
| `Registry` | registry.dfy | cache and file store, add/edit/remove, lookup, help |
| `Tracker` | tracker.dfy | the two id sets and `clearBotMessages` |
| `Dispatch` | dispatch.dfy | tokenizing and routing in `handleCommand` |
| `Handler` | handler.dfy | the `MessageCreate` handler |
| `Voice` | voice.dfy | the `VoiceStateUpdate` handler |

Behaviour of the code that the model keeps as written:

* **Failed writes.** The mutating commands edit the cached map in place before
  `saveCommands` runs. A failed write is swallowed and the success text is
  still returned, so the cache gets ahead of the file
  (`Registry.FailedWriteDiverges`).
* **Teardown count.** A tracked channel is deleted when the member count read
  after someone leaves it is exactly one, not zero. The bot joins every channel
  it tracks (a failed move aborts before the join and before tracking), but the
  one member left can just as well be a user.
* **The bot's single connection.** The bot holds one voice connection, so
  provisioning a second channel moves the bot out of the first. The bot's own
  update then leaves the first channel with its user as the only member, and
  the teardown rule deletes that channel with the user in it
  (`Voice.BotMoveEvicts`).
* **Reserved names.** Only add checks the reserved names. Edit and remove act
  on a stored command of any name (`Registry.ReservedOnlyForAdd`).
* **Failed move.** When the create succeeds but the move throws, the created
  channel is never tracked. A create or move failure aborts the whole handler,
  so the teardown rule is not evaluated in that event.
* **Runs of spaces.** The tokenizer splits on runs of spaces, so a run
  separates like one space and the reply of `!add` is the later words joined
  by single spaces (`Text.SplitRunsSqueeze`, `Dispatch.ParseSpreadAdd`).
* **Line breaks in names.** The tokenizer splits on spaces only, so a name can
  hold a line break: `!add a<LF>b hi` stores the key `a<LF>b`. Help then shows
  that one key as two lines, `!a` and `b`, and the one-line-per-key shape of
  the help text is lost (`Registry.NameWithBreakSplitsHelp`).

JavaScript truthiness is kept. `commands[key]` counts as present only when the
key exists and its reply is non-empty (`Registry.Has`). A missing name after
`!add`, `!edit` or `!remove` makes `toLowerCase` throw after the read-through.
A message outside a guild throws at `message.guild.id`. Both throws end in the
generic error answer of `MessageCreate`.

## Model

| member | source | states |
|---|---|---|
| `Text.Lower` | Discord-BOT/features/customCommands.js:26 | lower-casing keeps the length and maps each ASCII capital to its small letter, every other character to itself |
| `Text.LowerIsLower` | Discord-BOT/features/customCommands.js:99 | lower-casing is idempotent, and a string is its own lower-case form exactly when it has no capital |
| `Text.Trim` | Discord-BOT/features/customCommands.js:115 | `trim` returns a slice of the input with only white space cut from each end and no white space left at either end |
| `Text.SplitRuns` | Discord-BOT/features/customCommands.js:115 | `split(/ +/)` yields at least one piece, no piece holds a space, and no piece is empty when the input does not start or end with a space; which pieces is stated by `Text.JoinSplitRunsIsSqueeze` and `Text.SplitRunsOfSpread` |
| `Text.SplitRunsOfJoin` | Discord-BOT/features/customCommands.js:115-122 | non-empty space-free words joined with single spaces split back into exactly those words |
| `Text.JoinOfSplitRuns` | Discord-BOT/features/customCommands.js:115-122 | a string without double spaces is rebuilt by joining its pieces with single spaces |
| `Text.JoinSplitRunsIsSqueeze` | Discord-BOT/features/customCommands.js:115-122 | for every string, joining its pieces with single spaces gives the string with each run of spaces squeezed to one space |
| `Text.SplitRunsSqueeze` | Discord-BOT/features/customCommands.js:115 | a run of spaces separates like a single space: a string and its squeezed form split into the same pieces |
| `Text.Squeeze` | Discord-BOT/features/customCommands.js:115 | the reference for `split(/ +/)`: squeezing keeps the first character, empties only the empty string, and leaves no two spaces in a row |
| `Text.SpreadSingle` | Discord-BOT/features/customCommands.js:122 | words separated by runs of one space each are exactly their `join(' ')` |
| `Text.SplitRunsOfSpread` | Discord-BOT/features/customCommands.js:115 | non-empty space-free words separated by runs of spaces of any lengths split back into exactly those words |
| `Text.Join` | Discord-BOT/features/customCommands.js:122 | `join` has no contract of its own; `Text.SplitRunsOfJoin`, `Text.SplitOnOfJoin` and `Text.JoinEmpty` state what it builds |
| `Text.JoinEmpty` | Discord-BOT/features/customCommands.js:122 | joining non-empty words is empty exactly when there are no words, so the reply is falsy exactly when nothing follows the name |
| `Text.SplitOnOfJoin` | Discord-BOT/features/customCommands.js:192-195 | lines without a line break split back out of their `\n`-join |
| `Registry.GetCommands` | Discord-BOT/features/customCommands.js:73-86 | on a miss the guild's file (or an empty map when the read fails or there is no file) is cached; on a hit nothing changes; afterwards the guild is always cached and the file is never touched |
| `Registry.SaveCommands` | Discord-BOT/features/customCommands.js:88-96 | a successful write updates both the file and the cache entry; a failed write changes nothing |
| `Registry.Commit` | Discord-BOT/features/customCommands.js:35-36 | the cache holds the edited map whether or not the write succeeds; the file holds it only when the write succeeds |
| `Registry.AddCommand` | Discord-BOT/features/customCommands.js:23-39 | a missing name throws; a reserved name is refused before the empty checks; an empty name or reply gets the usage text; otherwise every spelling of the name answers the reply, no other key or guild changes, and the file follows only on a successful write |
| `Registry.EditCommand` | Discord-BOT/features/customCommands.js:41-57 | existence is checked before the empty reply; an absent name gets not-found and changes nothing; otherwise the name's reply is replaced, the key set is unchanged and other keys keep their replies |
| `Registry.RemoveCommand` | Discord-BOT/features/customCommands.js:59-71 | an absent name gets not-found and changes nothing; a present name loses exactly that key, other replies untouched |
| `Registry.ProcessCustomCommand` | Discord-BOT/features/customCommands.js:98-107 | the answer is the stored reply of the lower-cased name when present, the unknown-command text otherwise, and never empty |
| `Registry.HelpCommand` | Discord-BOT/features/customCommands.js:190-196 | help reads the guild's commands through the cache like any lookup; what its text says is stated by `Registry.HelpLines` |
| `Registry.HelpLines` | Discord-BOT/features/customCommands.js:190-195 | when the key order lists the stored keys and no stored name holds a line break, the help text's first line is the header and there is exactly one `!name` line per stored key, the lines being exactly the stored keys |
| `Registry.NameWithBreakSplitsHelp` | Discord-BOT/features/customCommands.js:190-195 | when the guild's only stored name is `x<LF>y` and the order lists it, that name shows in help as the two lines `!x` and `y`, so the one-line-per-key shape fails for such names |
| `Registry.BangsMembership` | Discord-BOT/features/customCommands.js:193 | a name is listed exactly when its `!name` line is present |
| `Registry.ListingLines` | Discord-BOT/features/customCommands.js:192-195 | split at line breaks, a listing is the header then one `!name` line per name, or one empty line for none |
| `Registry.ListingSize` | Discord-BOT/features/customCommands.js:192 | a duplicate-free enumeration of a key set is as long as the set |
| `Registry.AddThenLookup` | Discord-BOT/features/customCommands.js:26-38 | after an accepted add, a lookup of any case variant of the name answers the reply |
| `Registry.AddSurvivesRestart` | Discord-BOT/features/customCommands.js:73-96 | after an add whose write succeeded, a restarted process reading the file back answers the reply |
| `Registry.RemoveTwice` | Discord-BOT/features/customCommands.js:59-71 | a second remove of the same name answers not-found and leaves the state as the first left it |
| `Registry.WriteDoesNotDecide` | Discord-BOT/features/customCommands.js:88-96 | for add, edit and remove the answer and the cache are the same whether the write succeeds or not, and a failed write leaves the files untouched |
| `Registry.HitIgnoresRead` | Discord-BOT/features/customCommands.js:74 | on a cache hit the read outcome is irrelevant and nothing changes |
| `Registry.CoherentWhenIoSucceeds` | Discord-BOT/features/customCommands.js:73-96 | when every read and write succeeds, add, edit and remove keep the cache equal to the files |
| `Registry.CommitKeepsCoherent` | Discord-BOT/features/customCommands.js:88-96 | a successful write leaves the cache and the file agreeing for every guild |
| `Registry.FailedWriteDiverges` | Discord-BOT/features/customCommands.js:35-38 | an accepted add whose write fails still answers success, and leaves the cache disagreeing with the files |
| `Registry.ReservedOnlyForAdd` | Discord-BOT/features/customCommands.js:27-29 | a reserved name is refused by add but edited and removed like any other name present in the guild's commands |
| `Tracker.Window` | Discord-BOT/features/customCommands.js:175 | the fetch returns the newest messages, at most 100, all of them when there are no more |
| `Tracker.TrackedIn` | Discord-BOT/features/customCommands.js:176-178 | the filter keeps exactly the fetched ids that are in either tracked set |
| `Tracker.Forget` | Discord-BOT/features/customCommands.js:180-183 | both sets lose exactly the given ids |
| `Tracker.ClearBotMessages` | Discord-BOT/features/customCommands.js:173-187 | on success both sets lose exactly the tracked ids in the fetched window; when the fetch or the bulk delete fails both sets are unchanged |
| `Tracker.ClearLosesExactlyDeleted` | Discord-BOT/features/customCommands.js:173-187 | both sets lose exactly the ids the bulk delete is given, and ids outside the window stay tracked |
| `Dispatch.Args` | Discord-BOT/features/customCommands.js:115 | the words are at least one and space-free, and none is empty unless nothing follows the `!` |
| `Dispatch.Verb` | Discord-BOT/features/customCommands.js:116 | the verb is lower-case |
| `Dispatch.Route` | Discord-BOT/features/customCommands.js:119-162 | the branch chain has no contract of its own; `Dispatch.RouteCovers` states which verb reaches which branch and `Dispatch.RouteArguments` what the arguments are |
| `Dispatch.Parse` | Discord-BOT/features/customCommands.js:115-116 | parsing has no contract of its own; `Dispatch.ParseRoutes`, `Dispatch.ParseArguments` and `Dispatch.ParseSpread` state what a message parses to |
| `Dispatch.RouteCovers` | Discord-BOT/features/customCommands.js:119-162 | each built-in verb reaches its own branch and only the other verbs reach the lookup, so stored `help` or `chat` commands are unreachable |
| `Dispatch.ParseRoutes` | Discord-BOT/features/customCommands.js:115-162 | the lower-cased first word alone decides the route, and a lookup always gets a lower-case verb outside the built-ins |
| `Dispatch.RouteArguments` | Discord-BOT/features/customCommands.js:121-126 | the name is the next word, missing exactly when there is none; the reply is the later words joined by single spaces, empty exactly when there are none |
| `Dispatch.ParseArguments` | Discord-BOT/features/customCommands.js:115-126 | from chat a name is never empty nor holds a space, and it is missing exactly when the message has one word |
| `Dispatch.ArgsOfPlainWords` | Discord-BOT/features/customCommands.js:115 | `!` and plain words joined by single spaces tokenize back into those words |
| `Dispatch.ParsePlain` | Discord-BOT/features/customCommands.js:115-116 | a message of plain words routes on its lower-cased first word with the rest as arguments |
| `Dispatch.ParseTypedAdd` | Discord-BOT/features/customCommands.js:119-123 | `!add name word...` typed with single spaces is an add of that name with the words as reply |
| `Dispatch.ArgsOfSpread` | Discord-BOT/features/customCommands.js:115 | `!` and plain words separated by runs of spaces of any lengths tokenize into exactly those words |
| `Dispatch.ParseSpread` | Discord-BOT/features/customCommands.js:115-116 | a message of plain words separated by runs of spaces parses exactly as the same words separated by single spaces |
| `Dispatch.ParseSpreadAdd` | Discord-BOT/features/customCommands.js:115-123 | `!add name word...` typed with any number of spaces between the words is an add of that name whose reply is the words joined by single spaces |
| `Dispatch.Execute` | Discord-BOT/features/customCommands.js:119-162 | add, edit, remove, help and lookups answer exactly what their registry operation answers, with its state; clear answers nothing, leaves the trackers as the clean-up does and the command registry untouched; `!chat` alone gets the usage text, and otherwise only the dialogue reply's id, when posted, joins the bot set; only clear and chat touch the tracked sets, and only add, edit and remove touch the files |
| `Dispatch.HandleCommand` | Discord-BOT/features/customCommands.js:109-163 | a direct message throws; otherwise the parsed command is executed; a throw changes no tracked set; a text answer is never empty; only clear removes ids from the user set |
| `Handler.Respond` | Discord-BOT/index.js:48-61 | a non-empty answer is posted and its id tracked exactly when posting succeeds; a throw from handling or posting gets the error text; an empty or missing answer posts nothing |
| `Handler.MessageCreate` | Discord-BOT/index.js:40-63 | a bot's message id goes only into the bot set; a user's non-command message changes nothing; a user's command is answered as handling settles |
| `Handler.CommandTracking` | Discord-BOT/index.js:45-57 | a command's id joins the user set and stays unless the command is clear; besides chat's reply only the posted answer's id joins the bot set, and only when it was posted |
| `Handler.AddAnswer` | Discord-BOT/index.js:45-57 | an accepted add is confirmed and the cache then answers its reply |
| `Handler.CallAnswer` | Discord-BOT/index.js:45-57 | a lookup is answered with the registry's answer and both ids are tracked |
| `Handler.RemoveAnswer` | Discord-BOT/index.js:45-57 | the removal of a present name is confirmed and the name leaves the cache |
| `Handler.TypedAdd` | Discord-BOT/features/customCommands.js:115-123 | typed `!add name word...` is a command that parses as that add |
| `Handler.TypedAddArgs` | Discord-BOT/features/customCommands.js:31 | a typed add with words after the name passes the empty checks |
| `Handler.TypedCall` | Discord-BOT/features/customCommands.js:160-161 | typed `!name` for a non-built-in name is a lookup of its lower-case form |
| `Handler.TypedRemove` | Discord-BOT/features/customCommands.js:128-130 | typed `!remove name` is a removal of that name |
| `Handler.AddCallRemoveCall` | Discord-BOT/index.js:40-63 | add, lookup, remove, lookup answer the confirmation, the reply, the removal notice and the unknown-command text, from any state and whatever the files do |
| `Handler.GreetParses` | Discord-BOT/features/customCommands.js:115-161 | `!add greet hello there`, `!greet` and `!remove greet` parse as an add, a lookup and a removal of `greet` |
| `Handler.GreetScenario` | Discord-BOT/index.js:40-63 | the greeting example end to end: confirmation naming `greet`, `hello there`, the removal notice, the unknown-command text |
| `Voice.Provision` | Discord-BOT/index.js:80-118 | the rule fires only on arrival in the lobby from elsewhere; a failed create throws with nothing made; a failed move throws with the channel made but untracked; success adds exactly the new channel |
| `Voice.Teardown` | Discord-BOT/index.js:121-138 | the rule fires only when leaving a tracked channel whose count is exactly one; a successful delete drops exactly that channel; a failed delete keeps it tracked |
| `Voice.VoiceStateUpdate` | Discord-BOT/index.js:78-139 | provisioning runs first and a throw there ends the event unchanged; a channel is made exactly when the rule fires and the create succeeds, and it is the channel the create returned; the live set is the old one plus the made channel minus the deleted one; a teardown that fires with a successful delete deletes the channel left, which is then no longer live, and conversely a channel is deleted only when that rule fires and the delete succeeds; staying in a channel deletes nothing |
| `Voice.FailedDeleteKeeps` | Discord-BOT/index.js:121-136 | when deleting the channel left fails, nothing is deleted and that channel stays tracked |
| `Voice.BotMoveEvicts` | Discord-BOT/index.js:112-136 | when the bot's single connection moves it from one tracked channel to another, its own update deletes the first channel while a user is still in it |
| `Voice.ReentryDuplicates` | Discord-BOT/index.js:80-110 | re-entering the lobby provisions a new channel whatever is already live |
| `Voice.LeaveIntoLobby` | Discord-BOT/index.js:78-138 | moving from a tracked channel into the lobby both adds the new channel and removes the left one |
| `Voice.ProvisionIff` | Discord-BOT/index.js:80-110 | when the create and the move succeed, the created id is not yet live, and no teardown fires, a channel is made exactly on arrival in the lobby from elsewhere, and then the live set grows by exactly that one channel |
| `Voice.NoDoubleDelete` | Discord-BOT/index.js:121-136 | over a run of updates with fresh created ids, no channel is deleted twice |
| `Voice.StaysGone` | Discord-BOT/index.js:121-136 | a channel that is not live and is never created again is never deleted |

## Left out

- `Discord-BOT/utils/dialogue.js`: the chat engine reads a spreadsheet and picks replies at random. `!chat` receives its answer as an input.
- Audio playback, `joinVoiceChannel` and the libsodium setup are media-library calls. The model does not track which channel the bot is in: the member count the teardown rule reads is an input, and the bot's moves show up only through that count and through the bot's own `VoiceStateUpdate` events.
- The permission overwrites copied from the category, and the channel's name, are opaque platform values that do not affect the state.
- `fileUtils` and the JSON format: the file store is an abstract per-guild map, and each read and write succeeds or fails as an input. A file that reads back as `null` is treated like a missing file (an empty map).
- `newState.channel.parent` being null makes provisioning throw before the create. The model treats it like a failed create.
- Voice.VoiceStateUpdate: does not model the throw when `oldState.channel` has already gone. Reading its member count then throws in the teardown rule, after provisioning has run; the model takes the count as an input instead.
- Concurrency: every event is handled atomically, one after the other. Interleaved async handlers are not modelled.
- JavaScript prototype lookups such as `commands['constructor']` being truthy. The command set is a plain map.
- Client construction, login, configuration, and the `MessageDelete` and `MessageUpdate` handlers, which only log.
- The unused module-level sets at `customCommands.js:20-21`. The live sets are the ones `index.js` passes in.
- The bot's own posted replies also arrive as bot `MessageCreate` events, which add their ids to the bot set a second time. Each event is modelled separately.
- `message.reply` for the error answer is not awaited, and the MessageCreate handler that sends it does not track its id. The model records its text only. That reply still joins the bot set later, through the bot's own MessageCreate event (Discord-BOT/index.js:41-42), which the model covers as a separate event.
- Text.Lower: covers the ASCII letters only, not the full Unicode case mapping of `toLowerCase`.
- Registry.HelpCommand: the order in which `Object.keys` lists a guild's keys is an input (`Env.keyOrder`) that the operation does not tie to the stored keys; `Registry.HelpLines` states the help text under the condition that it lists each stored key exactly once. JavaScript's insertion order is not modelled.
- Dispatch.HandleCommand: the chat branch's reply text comes from the dialogue engine, and playing its audio is omitted.

=== FILE: dispatch.dfy ===
/** The tokenizer and dispatcher `handleCommand` of
    Discord-BOT/features/customCommands.js: a `!` message is cut into words, the
    first word picks the command, and the rest become its arguments. */
module Dispatch {
  import opened Types
  import Text
  import Registry
  import Tracker

  /** A parsed command. A missing argument (`args.shift()` on an empty array) is
      `None`. */
  datatype Command =
    | AddCmd(name: Option<string>, reply: string)
    | EditCmd(name: Option<string>, reply: string)
    | RemoveCmd(name: Option<string>)
    | ChatCmd(text: string)
    | ClearCmd
    | HelpCmd
    | CustomCmd(verb: string)

  /** The verbs the dispatcher handles itself, in the order it tests them. */
  const BuiltIn: seq<string> := ["add", "edit", "remove", "chat", "clear", "help"]

  /** `s.slice(1)`. */
  function Drop1(s: string): (r: string)
    ensures |s| > 0 ==> r == s[1..]
    ensures |s| == 0 ==> r == []
  {
    if |s| == 0 then s else s[1..]
  }

  /** `message.content.slice(1).trim().split(/ +/)`: at least one word, none
      holding a space, and none empty unless the message has nothing after the
      `!`. */
  function Args(content: string): (args: seq<string>)
    ensures |args| >= 1
    ensures forall k :: 0 <= k < |args| ==> ' ' !in args[k]
    ensures Text.Trim(Drop1(content)) == [] ==> args == [[]]
    ensures Text.Trim(Drop1(content)) != [] ==> forall k :: 0 <= k < |args| ==> args[k] != []
  {
    var body := Text.Trim(Drop1(content));
    var args := Text.SplitRuns(body);
    if body == [] then
      assert Text.IndexOf(body, ' ') == 0;
      args
    else
      assert !Text.IsJsSpace(body[0]) && !Text.IsJsSpace(body[|body| - 1]);
      args
  }

  /** `args.shift()`: the first word, if any. */
  function Head(words: seq<string>): (r: Option<string>)
    ensures |words| == 0 <==> r.None?
    ensures |words| > 0 ==> r == Some(words[0])
  {
    if |words| == 0 then None else Some(words[0])
  }

  /** The words after the first. */
  function Tail(words: seq<string>): (r: seq<string>)
    ensures |words| > 0 ==> r == words[1..]
    ensures |words| == 0 ==> r == []
  {
    if |words| == 0 then [] else words[1..]
  }

  /** The lower-cased first word. */
  function Verb(content: string): (v: string)
    ensures Text.IsLower(v)
  {
    Text.LowerIsLower(Args(content)[0]);
    Text.Lower(Args(content)[0])
  }

  /** The routing of `handleCommand`: `add`, `edit` and `remove` come first,
      then `chat`, `clear` and `help`; any other verb is a custom-command lookup. */
  function Route(verb: string, rest: seq<string>): (c: Command)
  {
    if verb == "add" then AddCmd(Head(rest), Text.Join(Tail(rest), ' '))
    else if verb == "edit" then EditCmd(Head(rest), Text.Join(Tail(rest), ' '))
    else if verb == "remove" then RemoveCmd(Head(rest))
    else if verb == "chat" then ChatCmd(Text.Join(rest, ' '))
    else if verb == "clear" then ClearCmd
    else if verb == "help" then HelpCmd
    else CustomCmd(verb)
  }

  /** The command a `!` message asks for. */
  function Parse(content: string): (c: Command)
  {
    Route(Verb(content), Args(content)[1..])
  }

  /** Each built-in verb reaches its own branch, and only the other verbs reach
      the lookup: a stored command named `help` or `chat` can never be answered. */
  lemma RouteCovers(verb: string, rest: seq<string>)
    ensures var c := Route(verb, rest);
            && (c.AddCmd? <==> verb == "add")
            && (c.EditCmd? <==> verb == "edit")
            && (c.RemoveCmd? <==> verb == "remove")
            && (c.ChatCmd? <==> verb == "chat")
            && (c == ClearCmd <==> verb == "clear")
            && (c == HelpCmd <==> verb == "help")
            && (c.CustomCmd? <==> verb !in BuiltIn)
            && (c.CustomCmd? ==> c.verb == verb)
  {
    assert verb in BuiltIn <==> verb == "add" || verb == "edit" || verb == "remove" || verb == "chat" || verb == "clear" || verb == "help";
  }

  /** What a message routes to is decided by its lower-cased first word, and
      the lookup only ever sees lower-case verbs outside the built-ins. */
  lemma ParseRoutes(content: string)
    ensures Parse(content).CustomCmd? <==> Verb(content) !in BuiltIn
    ensures Parse(content).CustomCmd? ==> Parse(content).verb == Verb(content) && Text.IsLower(Parse(content).verb)
    ensures Parse(content) == HelpCmd <==> Verb(content) == "help"
    ensures Parse(content) == ClearCmd <==> Verb(content) == "clear"
  {
    RouteCovers(Verb(content), Args(content)[1..]);
  }

  /** The arguments of `add` and `edit`: the name is the next word and the
      reply the words after it joined by single spaces, empty exactly when there
      are none; a missing name is `None`. */
  lemma RouteArguments(verb: string, rest: seq<string>)
    requires forall k :: 0 <= k < |rest| ==> rest[k] != []
    ensures var c := Route(verb, rest);
            (c.AddCmd? || c.EditCmd?) ==>
              && (c.name.None? <==> |rest| == 0)
              && (c.name.Some? ==> c.name.value == rest[0] && c.name.value != [])
              && (c.reply == [] <==> |rest| <= 1)
              && (|rest| > 1 ==> c.reply == Text.Join(rest[1..], ' '))
  {
    if |rest| > 1 {
      var tail := rest[1..];
      assert forall k :: 0 <= k < |tail| ==> tail[k] == rest[k + 1];
      Text.JoinEmpty(tail, ' ');
    }
  }

  /** From chat, the name after `!add`, `!edit` or `!remove` is never empty, so
      the source's `!commandName` test cannot fire there; it is missing exactly
      when the message has no second word. */
  lemma ParseArguments(content: string)
    ensures var c := Parse(content);
            (c.AddCmd? || c.EditCmd?) ==>
              && (c.name.None? <==> |Args(content)| == 1)
              && (c.name.Some? ==> c.name.value != [] && ' ' !in c.name.value)
              && (c.reply == [] <==> |Args(content)| <= 2)
  {
    var rest := Args(content)[1..];
    ArgsAfterVerb(content);
    RouteArguments(Verb(content), rest);
    assert Parse(content) == Route(Verb(content), rest);
  }

  /** The words after the verb are non-empty and hold no space. */
  lemma ArgsAfterVerb(content: string)
    ensures var rest := Args(content)[1..];
            forall k :: 0 <= k < |rest| ==> rest[k] != [] && ' ' !in rest[k]
  {
    var args := Args(content);
    assert args == [[]] || forall k :: 0 <= k < |args| ==> args[k] != [];
    TailWords(args);
  }

  /** Dropping the first of space-free words, all non-empty unless the only one
      is empty, leaves non-empty space-free words. */
  lemma TailWords(args: seq<string>)
    requires |args| >= 1
    requires forall k :: 0 <= k < |args| ==> ' ' !in args[k]
    requires args == [[]] || forall k :: 0 <= k < |args| ==> args[k] != []
    ensures forall k :: 0 <= k < |args| - 1 ==> args[1..][k] != [] && ' ' !in args[1..][k]
  {
    var rest := args[1..];
    assert forall k :: 0 <= k < |rest| ==> rest[k] == args[k + 1];
  }

  /** Words without white space, the first non-empty: the shape of a command
      someone typed with single spaces. */
  predicate PlainWords(words: seq<string>) {
    && |words| >= 1
    && (forall k :: 0 <= k < |words| ==> words[k] != [])
    && (forall k, i :: 0 <= k < |words| && 0 <= i < |words[k]| ==> !Text.IsJsSpace(words[k][i]))
  }

  /** `!` followed by plain words joined by single spaces tokenizes back into
      exactly those words. */
  lemma ArgsOfPlainWords(words: seq<string>)
    requires PlainWords(words)
    ensures Args(['!'] + Text.Join(words, ' ')) == words
  {
    var body := Text.Join(words, ' ');
    assert Drop1(['!'] + body) == body;
    JoinEnds(words);
    assert Text.Trim(body) == body by {
      TrimNoop(body);
    }
    forall k | 0 <= k < |words| ensures words[k] != [] && ' ' !in words[k] {
      assert forall i :: 0 <= i < |words[k]| ==> words[k][i] != ' ';
    }
    Text.SplitRunsOfJoin(words);
  }

  /** Joined plain words start and end with a non-space character. */
  lemma {:induction false} JoinEnds(words: seq<string>)
    requires PlainWords(words)
    ensures var s := Text.Join(words, ' ');
            s != [] && !Text.IsJsSpace(s[0]) && !Text.IsJsSpace(s[|s| - 1])
  {
    var s := Text.Join(words, ' ');
    Text.JoinHead(words, ' ');
    assert s[0] == s[..|words[0]|][0] == words[0][0];
    if |words| > 1 {
      var tail := words[1..];
      assert forall k :: 0 <= k < |tail| ==> tail[k] == words[k + 1];
      JoinEnds(tail);
      var t := Text.Join(tail, ' ');
      assert s == words[0] + [' '] + t;
      assert s[|s| - 1] == t[|t| - 1];
    } else {
      assert s == words[0];
      assert !Text.IsJsSpace(words[0][|words[0]| - 1]);
    }
  }

  /** `trim` leaves a string alone when neither end is white space. */
  lemma TrimNoop(s: string)
    requires s == [] || (!Text.IsJsSpace(s[0]) && !Text.IsJsSpace(s[|s| - 1]))
    ensures Text.Trim(s) == s
  {
    if s != [] {
      assert !Text.IsJsSpace(s[0]);
      assert Text.TrimStart(s) == s;
      assert !Text.IsJsSpace(s[|s| - 1]);
      assert Text.TrimEnd(s) == s;
    }
    Text.TrimIsEnds(s);
  }

  /** A message typed as plain words with single spaces routes on its first
      word, lower-cased, with the other words as arguments. */
  lemma ParsePlain(words: seq<string>)
    requires PlainWords(words)
    ensures Parse(['!'] + Text.Join(words, ' ')) == Route(Text.Lower(words[0]), words[1..])
  {
    ArgsOfPlainWords(words);
  }

  /** Typing `!add name word...` with single spaces parses as an add of that name
      with the words as reply. */
  lemma ParseTypedAdd(name: string, words: seq<string>)
    requires PlainWords(["add", name] + words)
    ensures Parse(['!'] + Text.Join(["add", name] + words, ' ')) == AddCmd(Some(name), Text.Join(words, ' '))
  {
    var all := ["add", name] + words;
    Text.LowerIsLower("add");
    assert Text.Lower(all[0]) == "add" && all[1..][0] == name && all[1..][1..] == words;
    assert Route("add", all[1..]) == AddCmd(Some(name), Text.Join(words, ' '));
    ParsePlain(all);
  }

  /** Plain words separated by runs of spaces start and end with a non-space
      character. */
  lemma {:induction false} SpreadEnds(words: seq<string>, gaps: seq<nat>)
    requires PlainWords(words) && |words| <= |gaps| + 1
    ensures var s := Text.Spread(words, gaps);
            s != [] && !Text.IsJsSpace(s[0]) && !Text.IsJsSpace(s[|s| - 1])
  {
    var s := Text.Spread(words, gaps);
    assert s[0] == s[..|words[0]|][0] == words[0][0];
    if |words| > 1 {
      var tail := words[1..];
      assert forall k :: 0 <= k < |tail| ==> tail[k] == words[k + 1];
      SpreadEnds(tail, gaps[1..]);
      var t := Text.Spread(tail, gaps[1..]);
      assert s == words[0] + Text.Spaces(gaps[0] + 1) + t;
      assert s[|s| - 1] == t[|t| - 1];
    } else {
      assert s == words[0];
      assert !Text.IsJsSpace(words[0][|words[0]| - 1]);
    }
  }

  /** `!` followed by plain words separated by runs of spaces of any lengths
      tokenizes into exactly those words: `split(/ +/)` treats a run like one
      space. */
  lemma ArgsOfSpread(words: seq<string>, gaps: seq<nat>)
    requires PlainWords(words) && |words| <= |gaps| + 1
    ensures Args(['!'] + Text.Spread(words, gaps)) == words
  {
    var body := Text.Spread(words, gaps);
    assert Drop1(['!'] + body) == body;
    SpreadEnds(words, gaps);
    assert Text.Trim(body) == body by {
      TrimNoop(body);
    }
    forall k | 0 <= k < |words| ensures words[k] != [] && ' ' !in words[k] {
      assert forall i :: 0 <= i < |words[k]| ==> words[k][i] != ' ';
    }
    Text.SplitRunsOfSpread(words, gaps);
  }

  /** A message of plain words separated by runs of spaces routes exactly as
      the same words separated by single spaces do. */
  lemma ParseSpread(words: seq<string>, gaps: seq<nat>)
    requires PlainWords(words) && |words| <= |gaps| + 1
    ensures Parse(['!'] + Text.Spread(words, gaps)) == Route(Text.Lower(words[0]), words[1..])
    ensures Parse(['!'] + Text.Spread(words, gaps)) == Parse(['!'] + Text.Join(words, ' '))
  {
    ArgsOfSpread(words, gaps);
    ParsePlain(words);
  }

  /** Typing `!add name word...` with any number of spaces between the words
      stores the words joined by single spaces: `!add greet hello   there`
      stores `hello there`. */
  lemma ParseSpreadAdd(name: string, words: seq<string>, gaps: seq<nat>)
    requires PlainWords(["add", name] + words) && |words| + 1 <= |gaps|
    ensures Parse(['!'] + Text.Spread(["add", name] + words, gaps)) == AddCmd(Some(name), Text.Join(words, ' '))
  {
    var all := ["add", name] + words;
    Text.LowerIsLower("add");
    assert Text.Lower(all[0]) == "add" && all[1..][0] == name && all[1..][1..] == words;
    assert Route("add", all[1..]) == AddCmd(Some(name), Text.Join(words, ' '));
    ArgsOfSpread(all, gaps);
  }

  /** The bot's process-wide state: the command registry and the trackers. */
  datatype Bot = Bot(reg: Registry.State, tracked: Tracker.Tracked)

  /** Everything outside the core one message may consult: file reads and
      writes, the clean-up's fetch and bulk delete, the dialogue engine's reply
      text (`None` when it throws or has none), the id of the chat reply the bot
      posts (`None` when posting throws), the key order of `Object.keys`, and the
      id of the bot's answer in the channel (`None` when posting throws). */
  datatype Env = Env(
    io: Registry.Io,
    clear: Tracker.ClearIo,
    dialogue: Option<string>,
    chatReply: Option<MessageId>,
    keyOrder: seq<string>,
    replyId: Option<MessageId>)

  /** What `handleCommand` resolves to (`undefined` is `None`) and the state after. */
  datatype Handled = Handled(out: Outcome<Option<string>>, bot: Bot)

  function RenderOutcome(o: Outcome<Registry.Reply>): (r: Outcome<Option<string>>)
    ensures o.Threw? <==> r.Threw?
    ensures o.Returned? ==> r == Returned(Some(Registry.Render(o.value)))
  {
    match o
    case Threw => Threw
    case Returned(reply) => Returned(Some(Registry.Render(reply)))
  }

  /** The branch chain of `handleCommand` once the guild is known and the
      message is parsed: each command is answered by its registry operation,
      by the clean-up, or by the dialogue engine. */
  function Execute(b: Bot, g: GuildId, c: Command, env: Env): (r: Handled)
    ensures r.out.Threw? ==> r.bot.tracked == b.tracked
    ensures r.out.Returned? && r.out.value.Some? ==> r.out.value.value != []
    ensures c != ClearCmd && !c.ChatCmd? ==> r.bot.tracked == b.tracked
    ensures c != ClearCmd ==> r.bot.tracked.user == b.tracked.user
    ensures !(c.AddCmd? || c.EditCmd? || c.RemoveCmd?) ==> r.bot.reg.store == b.reg.store
    ensures c.AddCmd? ==>
              var o := Registry.AddCommand(b.reg, g, c.name, c.reply, env.io);
              r == Handled(RenderOutcome(o.out), b.(reg := o.st))
    ensures c.EditCmd? ==>
              var o := Registry.EditCommand(b.reg, g, c.name, c.reply, env.io);
              r == Handled(RenderOutcome(o.out), b.(reg := o.st))
    ensures c.RemoveCmd? ==>
              var o := Registry.RemoveCommand(b.reg, g, c.name, env.io);
              r == Handled(RenderOutcome(o.out), b.(reg := o.st))
    ensures c == HelpCmd ==>
              var a := Registry.HelpCommand(b.reg, g, env.io.readOk, env.keyOrder);
              r == Handled(Returned(Some(a.text)), b.(reg := a.st))
    ensures c.CustomCmd? ==>
              var a := Registry.ProcessCustomCommand(b.reg, g, c.verb, env.io.readOk);
              r == Handled(Returned(Some(a.text)), b.(reg := a.st))
    ensures c == ClearCmd ==>
              r.out == Returned(None) && r.bot.tracked == Tracker.ClearBotMessages(b.tracked, env.clear)
    // the clean-up touches the trackers only, never the command registry
    ensures c == ClearCmd ==> r.bot.reg == b.reg
    // `!chat` alone gets the usage text; otherwise the dialogue engine answers
    // in the channel itself, and its reply's id joins the bot set when posted
    ensures c == ChatCmd([]) ==> r == Handled(Returned(Some(ChatUsage)), b)
    ensures c.ChatCmd? && c.text != [] ==>
              && r.out == Returned(None) && r.bot.reg == b.reg && r.bot.tracked.user == b.tracked.user
              && r.bot.tracked.bot == b.tracked.bot +
                   (if env.dialogue.Some? && env.dialogue.value != [] && env.chatReply.Some?
                    then {env.chatReply.value} else {})
  {
    match c
    case AddCmd(name, reply) =>
      var o := Registry.AddCommand(b.reg, g, name, reply, env.io);
      Handled(RenderOutcome(o.out), b.(reg := o.st))
    case EditCmd(name, reply) =>
      var o := Registry.EditCommand(b.reg, g, name, reply, env.io);
      Handled(RenderOutcome(o.out), b.(reg := o.st))
    case RemoveCmd(name) =>
      var o := Registry.RemoveCommand(b.reg, g, name, env.io);
      Handled(RenderOutcome(o.out), b.(reg := o.st))
    case ChatCmd(text) =>
      if text == [] then Handled(Returned(Some(ChatUsage)), b)
      else if env.dialogue.Some? && env.dialogue.value != [] && env.chatReply.Some? then
        Handled(Returned(None), b.(tracked := b.tracked.(bot := b.tracked.bot + {env.chatReply.value})))
      else Handled(Returned(None), b)
    case ClearCmd =>
      Handled(Returned(None), b.(tracked := Tracker.ClearBotMessages(b.tracked, env.clear)))
    case HelpCmd =>
      var a := Registry.HelpCommand(b.reg, g, env.io.readOk, env.keyOrder);
      Handled(Returned(Some(a.text)), b.(reg := a.st))
    case CustomCmd(verb) =>
      var a := Registry.ProcessCustomCommand(b.reg, g, verb, env.io.readOk);
      Handled(Returned(Some(a.text)), b.(reg := a.st))
  }

  /** `handleCommand(message, botMessages, userCommandMessages, voiceConnection)`.
      `message.guild.id` throws in a direct message; otherwise the parsed
      command is executed. The chat branch's own failures are caught inside it. */
  function HandleCommand(b: Bot, guild: Option<GuildId>, content: string, env: Env): (r: Handled)
    ensures guild.None? ==> r == Handled(Threw, b)
    ensures guild.Some? ==> r == Execute(b, guild.value, Parse(content), env)
    ensures r.out.Threw? ==> r.bot.tracked == b.tracked
    ensures r.out.Returned? && r.out.value.Some? ==> r.out.value.value != []
    ensures Parse(content) != ClearCmd && !Parse(content).ChatCmd? ==> r.bot.tracked == b.tracked
    ensures Parse(content) != ClearCmd ==> r.bot.tracked.user == b.tracked.user
    ensures !(Parse(content).AddCmd? || Parse(content).EditCmd? || Parse(content).RemoveCmd?) ==>
              r.bot.reg.store == b.reg.store
  {
    match guild
    case None => Handled(Threw, b)
    case Some(g) => Execute(b, g, Parse(content), env)
  }

  /** What `!chat` with nothing after it answers. */
  const ChatUsage: string := "請提供一個有效的訊息來進行對話。"
}

=== FILE: handler.dfy ===
/** The `MessageCreate` handler of Discord-BOT/index.js: which message ids
    enter `botMessages` and `userCommandMessages`, and what the bot answers. */
module Handler {
  import opened Types
  import Text
  import Registry
  import Tracker
  import Dispatch

  /** An incoming message: its id, whether a bot wrote it, its text, and its
      guild (`None` in a direct message). */
  datatype Message = Message(id: MessageId, fromBot: bool, content: string, guild: Option<GuildId>)

  /** The state after the message, and the text of the last answer the handler
      tried to post (`None` when it posts nothing). */
  datatype Created = Created(bot: Dispatch.Bot, answer: Option<string>)

  /** The answer posted when handling the command throws. */
  const ErrorReply: string := "發生錯誤,指令處理失敗。"

  /** `message.content.startsWith('!')`. */
  predicate IsCommand(content: string) {
    |content| > 0 && content[0] == '!'
  }

  /** The handler once the command message is tracked. */
  function Handle(b: Dispatch.Bot, m: Message, env: Dispatch.Env): (h: Dispatch.Handled)
  {
    Dispatch.HandleCommand(b.(tracked := b.tracked.(user := b.tracked.user + {m.id})), m.guild, m.content, env)
  }

  /** The answer is posted, and its id tracked, only when `handleCommand`
      resolved to a non-empty text and posting it succeeded. */
  predicate Answered(h: Dispatch.Handled, env: Dispatch.Env) {
    h.out.Returned? && h.out.value.Some? && h.out.value.value != [] && env.replyId.Some?
  }

  /** What the handler does once `handleCommand` has settled: a non-empty text
      is posted and, when posting succeeds, its id joins botMessages; a throw,
      from `handleCommand` or from posting, is answered with the error text. */
  function Respond(h: Dispatch.Handled, env: Dispatch.Env): (r: Created)
    ensures r.bot.reg == h.bot.reg && r.bot.tracked.user == h.bot.tracked.user
    ensures r.bot.tracked.bot == h.bot.tracked.bot + (if Answered(h, env) then {env.replyId.value} else {})
    ensures Answered(h, env) ==> r.answer == h.out.value
    ensures h.out.Threw? ==> r.answer == Some(ErrorReply)
    ensures h.out.Returned? && h.out.value.Some? && h.out.value.value != [] && env.replyId.None? ==>
              r.answer == Some(ErrorReply)
    ensures h.out.Returned? && (h.out.value.None? || h.out.value.value == []) ==> r.answer.None?
  {
    match h.out
    case Threw => Created(h.bot, Some(ErrorReply))
    case Returned(None) => Created(h.bot, None)
    case Returned(Some(text)) =>
      if text == [] then Created(h.bot, None)
      else match env.replyId
        case Some(rid) => Created(h.bot.(tracked := h.bot.tracked.(bot := h.bot.tracked.bot + {rid})), Some(text))
        case None => Created(h.bot, Some(ErrorReply))
  }

  /** `client.on(Events.MessageCreate, ...)`. */
  function MessageCreate(b: Dispatch.Bot, m: Message, env: Dispatch.Env): (r: Created)
    // a bot's message: its id goes into botMessages only
    ensures m.fromBot ==>
              r == Created(b.(tracked := b.tracked.(bot := b.tracked.bot + {m.id})), None)
    // a user's message that is not a command: nothing is tracked
    ensures !m.fromBot && !IsCommand(m.content) ==> r == Created(b, None)
    // a user's command is answered as `handleCommand` settles
    ensures !m.fromBot && IsCommand(m.content) ==> r == Respond(Handle(b, m, env), env)
  {
    if m.fromBot then Created(b.(tracked := b.tracked.(bot := b.tracked.bot + {m.id})), None)
    else if !IsCommand(m.content) then Created(b, None)
    else Respond(Handle(b, m, env), env)
  }

  /** A user's command joins userCommandMessages and stays there unless it is
      `!clear`; besides the chat reply, the only id that joins botMessages is
      that of the answer, and only when the answer was posted. */
  lemma CommandTracking(b: Dispatch.Bot, m: Message, env: Dispatch.Env)
    requires !m.fromBot && IsCommand(m.content)
    ensures var c := Dispatch.Parse(m.content);
            var r := MessageCreate(b, m, env);
            c != Dispatch.ClearCmd ==> r.bot.tracked.user == b.tracked.user + {m.id}
    ensures var c := Dispatch.Parse(m.content);
            var r := MessageCreate(b, m, env);
            var h := Handle(b, m, env);
            c != Dispatch.ClearCmd && !c.ChatCmd? ==>
              r.bot.tracked.bot == b.tracked.bot + (if Answered(h, env) then {env.replyId.value} else {})
  {
  }

  /** A message typed as words separated by single spaces after the `!`. */
  function Typed(words: seq<string>): string {
    ['!'] + Text.Join(words, ' ')
  }

  /** A command that parses as an add of a fresh-enough name and a non-empty
      reply is confirmed, and the cache answers that reply for the name. */
  lemma AddAnswer(b: Dispatch.Bot, m: Message, env: Dispatch.Env, name: string, reply: string)
    requires !m.fromBot && IsCommand(m.content) && m.guild.Some?
    requires Dispatch.Parse(m.content) == Dispatch.AddCmd(Some(name), reply)
    requires Text.Lower(name) !in Registry.ReservedWords && name != [] && reply != []
    requires env.replyId.Some?
    ensures var r := MessageCreate(b, m, env);
            && r.answer == Some(Registry.Render(Registry.Added(Text.Lower(name), reply)))
            && m.guild.value in r.bot.reg.cache
            && Registry.Has(r.bot.reg.cache[m.guild.value], Text.Lower(name))
            && r.bot.reg.cache[m.guild.value][Text.Lower(name)] == reply
            && r.bot.tracked.user == b.tracked.user + {m.id}
            && r.bot.tracked.bot == b.tracked.bot + {env.replyId.value}
  {
    var g := m.guild.value;
    var b1 := b.(tracked := b.tracked.(user := b.tracked.user + {m.id}));
    var o := Registry.AddCommand(b1.reg, g, Some(name), reply, env.io);
    assert Registry.Has(o.st.cache[g], Text.Lower(name)) && o.st.cache[g][Text.Lower(name)] == reply;
    var h := Handle(b, m, env);
    assert h == Dispatch.Handled(Dispatch.RenderOutcome(o.out), b1.(reg := o.st));
  }

  /** A command that parses as a lookup is answered with the registry's answer. */
  lemma CallAnswer(b: Dispatch.Bot, m: Message, env: Dispatch.Env, verb: string)
    requires !m.fromBot && IsCommand(m.content) && m.guild.Some?
    requires Dispatch.Parse(m.content) == Dispatch.CustomCmd(verb)
    requires env.replyId.Some?
    ensures var r := MessageCreate(b, m, env);
            var a := Registry.ProcessCustomCommand(b.reg, m.guild.value, verb, env.io.readOk);
            && r.answer == Some(a.text)
            && r.bot.reg == a.st
            && r.bot.tracked.user == b.tracked.user + {m.id}
            && r.bot.tracked.bot == b.tracked.bot + {env.replyId.value}
  {
  }

  /** A command that parses as a removal of a present name is confirmed, and
      the name is gone from the cache. */
  lemma RemoveAnswer(b: Dispatch.Bot, m: Message, env: Dispatch.Env, name: string)
    requires !m.fromBot && IsCommand(m.content) && m.guild.Some?
    requires Dispatch.Parse(m.content) == Dispatch.RemoveCmd(Some(name))
    requires Registry.Has(Registry.GetCommands(b.reg, m.guild.value, env.io.readOk).cmds, Text.Lower(name))
    requires env.replyId.Some?
    ensures var r := MessageCreate(b, m, env);
            && r.answer == Some(Registry.Render(Registry.Removed(Text.Lower(name))))
            && m.guild.value in r.bot.reg.cache
            && Text.Lower(name) !in r.bot.reg.cache[m.guild.value]
            && r.bot.tracked.user == b.tracked.user + {m.id}
            && r.bot.tracked.bot == b.tracked.bot + {env.replyId.value}
  {
    var g := m.guild.value;
    var b1 := b.(tracked := b.tracked.(user := b.tracked.user + {m.id}));
    var o := Registry.RemoveCommand(b1.reg, g, Some(name), env.io);
    assert o.out == Returned(Registry.Removed(Text.Lower(name)));
    assert g in o.st.cache && Text.Lower(name) !in o.st.cache[g];
    var h := Handle(b, m, env);
    assert h == Dispatch.Handled(Dispatch.RenderOutcome(o.out), b1.(reg := o.st));
    assert h.bot.tracked == b1.tracked && h.bot.reg == o.st;
    assert Answered(h, env);
  }

  /** `!add name word...` typed with single spaces parses as an add of `name`
      whose reply is the words joined by single spaces. */
  lemma TypedAdd(name: string, words: seq<string>)
    requires Dispatch.PlainWords(["add", name] + words)
    ensures IsCommand(Typed(["add", name] + words))
    ensures Dispatch.Parse(Typed(["add", name] + words)) == Dispatch.AddCmd(Some(name), Text.Join(words, ' '))
  {
    Dispatch.ParseTypedAdd(name, words);
  }

  /** Plain words give a non-empty name and, when there are any after it, a
      non-empty reply. */
  lemma TypedAddArgs(name: string, words: seq<string>)
    requires Dispatch.PlainWords(["add", name] + words) && |words| > 0
    ensures name != [] && Text.Join(words, ' ') != []
  {
    var all := ["add", name] + words;
    assert all[1] == name;
    assert forall k :: 0 <= k < |words| ==> words[k] == all[k + 2];
    Text.JoinEmpty(words, ' ');
  }

  /** `!name` parses as a lookup of the lower-cased name when that is no
      built-in verb. */
  lemma TypedCall(name: string)
    requires Dispatch.PlainWords([name])
    requires Text.Lower(name) !in Dispatch.BuiltIn
    ensures IsCommand(Typed([name]))
    ensures Dispatch.Parse(Typed([name])) == Dispatch.CustomCmd(Text.Lower(name))
  {
    Dispatch.ParsePlain([name]);
    Dispatch.RouteCovers(Text.Lower(name), []);
  }

  /** `!remove name` parses as a removal of `name`. */
  lemma TypedRemove(name: string)
    requires Dispatch.PlainWords(["remove", name])
    ensures IsCommand(Typed(["remove", name]))
    ensures Dispatch.Parse(Typed(["remove", name])) == Dispatch.RemoveCmd(Some(name))
  {
    var words := ["remove", name];
    Text.LowerIsLower("remove");
    assert Text.Lower(words[0]) == "remove" && words[1..] == [name];
    assert Dispatch.Route("remove", [name]) == Dispatch.RemoveCmd(Some(name));
    Dispatch.ParsePlain(words);
  }

  /** Adding a command, calling it, removing it and calling it again answers the
      confirmation, the stored reply, the removal notice and the unknown-command
      text, from any starting state and whatever the file reads and writes do.
      `TypedAdd`, `TypedCall` and `TypedRemove` show that `!add name word...`,
      `!name` and `!remove name` typed with single spaces parse as required. */
  lemma AddCallRemoveCall(b0: Dispatch.Bot, g: GuildId, name: string, reply: string,
                          add: string, call: string, remove: string,
                          e1: Dispatch.Env, e2: Dispatch.Env, e3: Dispatch.Env, e4: Dispatch.Env)
    requires IsCommand(add) && Dispatch.Parse(add) == Dispatch.AddCmd(Some(name), reply)
    requires IsCommand(call) && Dispatch.Parse(call) == Dispatch.CustomCmd(Text.Lower(name))
    requires IsCommand(remove) && Dispatch.Parse(remove) == Dispatch.RemoveCmd(Some(name))
    requires Text.Lower(name) !in Registry.ReservedWords && name != [] && reply != []
    requires e1.replyId.Some? && e2.replyId.Some? && e3.replyId.Some? && e4.replyId.Some?
    ensures var r1 := MessageCreate(b0, Message(1, false, add, Some(g)), e1);
            var r2 := MessageCreate(r1.bot, Message(2, false, call, Some(g)), e2);
            var r3 := MessageCreate(r2.bot, Message(3, false, remove, Some(g)), e3);
            var r4 := MessageCreate(r3.bot, Message(4, false, call, Some(g)), e4);
            && r1.answer == Some(Registry.Render(Registry.Added(Text.Lower(name), reply)))
            && r2.answer == Some(reply)
            && r3.answer == Some(Registry.Render(Registry.Removed(Text.Lower(name))))
            && r4.answer == Some(Registry.InvalidCommand)
  {
    Text.LowerIsLower(name);
    var m1 := Message(1, false, add, Some(g));
    AddAnswer(b0, m1, e1, name, reply);
    var r1 := MessageCreate(b0, m1, e1);
    var m2 := Message(2, false, call, Some(g));
    CallAnswer(r1.bot, m2, e2, Text.Lower(name));
    var r2 := MessageCreate(r1.bot, m2, e2);
    var m3 := Message(3, false, remove, Some(g));
    RemoveAnswer(r2.bot, m3, e3, name);
    var r3 := MessageCreate(r2.bot, m3, e3);
    var m4 := Message(4, false, call, Some(g));
    CallAnswer(r3.bot, m4, e4, Text.Lower(name));
  }

  /** The greeting example: `!add greet hello there`, `!greet` and
      `!remove greet` parse as an add, a lookup and a removal of `greet`. */
  lemma GreetParses()
    ensures Dispatch.Parse("!add greet hello there") == Dispatch.AddCmd(Some("greet"), "hello there")
    ensures Dispatch.Parse("!greet") == Dispatch.CustomCmd("greet")
    ensures Dispatch.Parse("!remove greet") == Dispatch.RemoveCmd(Some("greet"))
  {
    GreetWords();
    TypedAdd("greet", ["hello", "there"]);
    TypedCall("greet");
    TypedRemove("greet");
  }

  /** The worked greeting example's literal words: they are plain, spell its
      three messages, and `greet` is a lower-case name outside the built-ins.
      `GreetPlain` and `GreetSpelling` are its two halves, kept apart only
      because the solver handles them separately but not together. */
  lemma GreetWords()
    ensures Dispatch.PlainWords(["add", "greet"] + ["hello", "there"])
    ensures Dispatch.PlainWords(["greet"]) && Dispatch.PlainWords(["remove", "greet"])
    ensures Typed(["add", "greet"] + ["hello", "there"]) == "!add greet hello there"
    ensures Text.Join(["hello", "there"], ' ') == "hello there"
    ensures Typed(["greet"]) == "!greet" && Typed(["remove", "greet"]) == "!remove greet"
    ensures Text.Lower("greet") == "greet" && "greet" !in Dispatch.BuiltIn
  {
    GreetPlain();
    GreetSpelling();
    Text.LowerIsLower("greet");
  }

  /** No word of the greeting example holds white space. */
  lemma GreetPlain()
    ensures Dispatch.PlainWords(["add", "greet"] + ["hello", "there"])
    ensures Dispatch.PlainWords(["greet"]) && Dispatch.PlainWords(["remove", "greet"])
  {
    assert ["add", "greet"] + ["hello", "there"] == ["add", "greet", "hello", "there"];
  }

  /** The greeting example's messages are its words joined by single spaces. */
  lemma GreetSpelling()
    ensures Typed(["add", "greet"] + ["hello", "there"]) == "!add greet hello there"
    ensures Text.Join(["hello", "there"], ' ') == "hello there"
    ensures Typed(["greet"]) == "!greet" && Typed(["remove", "greet"]) == "!remove greet"
  {
    Text.JoinCons("hello", ["there"], ' ');
    Text.JoinCons("greet", ["hello", "there"], ' ');
    Text.JoinCons("add", ["greet", "hello", "there"], ' ');
    assert ["add", "greet"] + ["hello", "there"] == ["add"] + ["greet", "hello", "there"];
    Text.JoinCons("remove", ["greet"], ' ');
  }

  /** The greeting example end to end, in any guild and from any state: the
      add is confirmed naming `greet`, `!greet` answers `hello there`, the
      removal is confirmed, and `!greet` then gets the unknown-command text. */
  lemma GreetScenario(b0: Dispatch.Bot, g: GuildId, e1: Dispatch.Env, e2: Dispatch.Env, e3: Dispatch.Env, e4: Dispatch.Env)
    requires e1.replyId.Some? && e2.replyId.Some? && e3.replyId.Some? && e4.replyId.Some?
    ensures Dispatch.Parse("!add greet hello there") == Dispatch.AddCmd(Some("greet"), "hello there")
    ensures Dispatch.Parse("!greet") == Dispatch.CustomCmd("greet")
    ensures Dispatch.Parse("!remove greet") == Dispatch.RemoveCmd(Some("greet"))
    ensures var r1 := MessageCreate(b0, Message(1, false, "!add greet hello there", Some(g)), e1);
            var r2 := MessageCreate(r1.bot, Message(2, false, "!greet", Some(g)), e2);
            var r3 := MessageCreate(r2.bot, Message(3, false, "!remove greet", Some(g)), e3);
            var r4 := MessageCreate(r3.bot, Message(4, false, "!greet", Some(g)), e4);
            && r1.answer == Some(Registry.Render(Registry.Added("greet", "hello there")))
            && r2.answer == Some("hello there")
            && r3.answer == Some(Registry.Render(Registry.Removed("greet")))
            && r4.answer == Some(Registry.InvalidCommand)
  {
    GreetWords();
    GreetParses();
    assert "greet" !in Registry.ReservedWords;
    AddCallRemoveCall(b0, g, "greet", "hello there", "!add greet hello there", "!greet", "!remove greet", e1, e2, e3, e4);
  }
}

=== FILE: registry.dfy ===
/** The per-guild custom-command registry of Discord-BOT/features/customCommands.js:
    a process-wide cache of `name -> reply` maps in front of a per-guild file
    store. The file store is an abstract map from guild to commands; whether a
    read or a write succeeds is an input (`Io`). */
module Registry {
  import opened Types
  import Text

  /** One guild's commands, keyed by lower-case name. */
  type Commands = map<string, string>

  /** The in-memory cache (`cache` in the source) and the files `server/<guild>.json`. */
  datatype State = State(cache: map<GuildId, Commands>, store: map<GuildId, Commands>)

  /** Whether the file read and the file write of one operation succeed. */
  datatype Io = Io(readOk: bool, writeOk: bool)

  /** The answers of the three mutating commands. */
  datatype Reply =
    | ReservedName
    | AddUsage
    | Added(name: string, reply: string)
    | NotFound(typed: string)
    | EditUsage
    | Edited(name: string, reply: string)
    | Removed(name: string)

  /** A reply rendered as the text the bot posts. */
  function Render(r: Reply): (s: string)
    ensures s != []
  {
    match r
    case ReservedName => "禁止使用保留關鍵字作為指令名稱。"
    case AddUsage => "請使用正確的格式：!add [指令名稱] [回覆內容]"
    case Added(n, m) => "已新增指令「" + n + "」，回覆訊息為：" + m
    case NotFound(n) => "找不到指令「" + n + "」，請先使用 !add 新增指令。"
    case EditUsage => "請設定回覆訊息：!edit [指令名稱] [回覆內容]"
    case Edited(n, m) => "已編輯指令「" + n + "」的回覆訊息為：" + m
    case Removed(n) => "已刪除指令「" + n + "」"
  }

  /** What an unknown custom command answers. */
  const InvalidCommand: string := "無效的指令！請使用 !add、!edit 或 !remove 來管理指令。"

  /** The first line of the help text. */
  const HelpHeader: string := "可用的指令如下:"

  /** Names `add` refuses to store. */
  const ReservedWords: seq<string> := ["add", "edit", "remove", "clear"]

  /** `commands[key]` is truthy: present with a non-empty reply. */
  predicate Has(cmds: Commands, key: string) {
    key in cmds && cmds[key] != []
  }

  /** What the store holds for a guild; a guild without a file reads as nothing. */
  function StoreView(store: map<GuildId, Commands>, g: GuildId): Commands {
    if g in store then store[g] else map[]
  }

  /** The commands `getCommands` hands out, and the state after it. */
  datatype Loaded = Loaded(cmds: Commands, st: State)

  /** `getCommands`: read-through on a cache miss, falling back to an empty map
      when the read fails or yields nothing. */
  function GetCommands(st: State, g: GuildId, readOk: bool): (r: Loaded)
    ensures g in r.st.cache && r.st.cache[g] == r.cmds
    ensures r.st.store == st.store
    ensures g in st.cache ==> r.st == st
    ensures g !in st.cache ==> r.st.cache == st.cache[g := r.cmds]
    ensures g !in st.cache && readOk ==> r.cmds == StoreView(st.store, g)
    ensures g !in st.cache && !readOk ==> r.cmds == map[]
  {
    if g in st.cache then Loaded(st.cache[g], st)
    else
      var data := if readOk then StoreView(st.store, g) else map[];
      Loaded(data, st.(cache := st.cache[g := data]))
  }

  /** `saveCommands`: the cache entry is replaced only after the file write
      succeeds; a failed write is swallowed. */
  function SaveCommands(st: State, g: GuildId, cmds: Commands, writeOk: bool): (r: State)
    ensures writeOk ==> r == State(st.cache[g := cmds], st.store[g := cmds])
    ensures !writeOk ==> r == st
  {
    if writeOk then State(st.cache[g := cmds], st.store[g := cmds]) else st
  }

  /** A mutating command edits the cached map in place (the object `getCommands`
      returned is the cache entry itself) and then calls `saveCommands`. */
  function Commit(st: State, g: GuildId, cmds: Commands, writeOk: bool): (r: State)
    ensures r.cache == st.cache[g := cmds]
    ensures writeOk ==> r.store == st.store[g := cmds]
    ensures !writeOk ==> r.store == st.store
  {
    SaveCommands(st.(cache := st.cache[g := cmds]), g, cmds, writeOk)
  }

  /** The answer of a command and the state after it. */
  datatype OpResult = OpResult(out: Outcome<Reply>, st: State)

  /** `addCommand(guildId, commandName, replyMessage)`. A missing name makes
      `commandName.toLowerCase()` throw after the read-through. */
  function AddCommand(st: State, g: GuildId, name: Option<string>, reply: string, io: Io): (r: OpResult)
    // refused or thrown: only the read-through happened
    ensures name.None? ==> r == OpResult(Threw, GetCommands(st, g, io.readOk).st)
    ensures name.Some? && Text.Lower(name.value) in ReservedWords ==>
              r == OpResult(Returned(ReservedName), GetCommands(st, g, io.readOk).st)
    ensures name.Some? && Text.Lower(name.value) !in ReservedWords && (name.value == [] || reply == []) ==>
              r == OpResult(Returned(AddUsage), GetCommands(st, g, io.readOk).st)
    // stored: every spelling of the name now answers `reply`, nothing else moved
    ensures name.Some? && Text.Lower(name.value) !in ReservedWords && name.value != [] && reply != [] ==>
              var pre := GetCommands(st, g, io.readOk).cmds;
              && r.out == Returned(Added(Text.Lower(name.value), reply))
              && g in r.st.cache
              && (forall v :: Text.Lower(v) == Text.Lower(name.value) ==> Has(r.st.cache[g], Text.Lower(v)) && r.st.cache[g][Text.Lower(v)] == reply)
              && r.st.cache[g] - {Text.Lower(name.value)} == pre - {Text.Lower(name.value)}
              && (forall h :: h in st.cache && h != g ==> h in r.st.cache && r.st.cache[h] == st.cache[h])
              && r.st.cache == GetCommands(st, g, io.readOk).st.cache[g := r.st.cache[g]]
              && (io.writeOk ==> r.st.store == st.store[g := r.st.cache[g]])
              && (!io.writeOk ==> r.st.store == st.store)
  {
    var pre := GetCommands(st, g, io.readOk);
    match name
    case None => OpResult(Threw, pre.st)
    case Some(n) =>
      var key := Text.Lower(n);
      if key in ReservedWords then OpResult(Returned(ReservedName), pre.st)
      else if n == [] || reply == [] then OpResult(Returned(AddUsage), pre.st)
      else OpResult(Returned(Added(key, reply)), Commit(pre.st, g, pre.cmds[key := reply], io.writeOk))
  }

  /** `editCommand(guildId, commandName, replyMessage)`: the existence check comes
      before the empty-reply check. */
  function EditCommand(st: State, g: GuildId, name: Option<string>, reply: string, io: Io): (r: OpResult)
    ensures name.None? ==> r == OpResult(Threw, GetCommands(st, g, io.readOk).st)
    ensures name.Some? && !Has(GetCommands(st, g, io.readOk).cmds, Text.Lower(name.value)) ==>
              r == OpResult(Returned(NotFound(name.value)), GetCommands(st, g, io.readOk).st)
    ensures name.Some? && Has(GetCommands(st, g, io.readOk).cmds, Text.Lower(name.value)) && reply == [] ==>
              r == OpResult(Returned(EditUsage), GetCommands(st, g, io.readOk).st)
    ensures name.Some? && Has(GetCommands(st, g, io.readOk).cmds, Text.Lower(name.value)) && reply != [] ==>
              var pre := GetCommands(st, g, io.readOk).cmds;
              && r.out == Returned(Edited(Text.Lower(name.value), reply))
              && g in r.st.cache
              && r.st.cache[g].Keys == pre.Keys
              && r.st.cache[g][Text.Lower(name.value)] == reply
              && r.st.cache[g] - {Text.Lower(name.value)} == pre - {Text.Lower(name.value)}
              && r.st.cache == GetCommands(st, g, io.readOk).st.cache[g := r.st.cache[g]]
              && (io.writeOk ==> r.st.store == st.store[g := r.st.cache[g]])
              && (!io.writeOk ==> r.st.store == st.store)
  {
    var pre := GetCommands(st, g, io.readOk);
    match name
    case None => OpResult(Threw, pre.st)
    case Some(n) =>
      var key := Text.Lower(n);
      if !Has(pre.cmds, key) then OpResult(Returned(NotFound(n)), pre.st)
      else if reply == [] then OpResult(Returned(EditUsage), pre.st)
      else OpResult(Returned(Edited(key, reply)), Commit(pre.st, g, pre.cmds[key := reply], io.writeOk))
  }

  /** `removeCommand(guildId, commandName)`. */
  function RemoveCommand(st: State, g: GuildId, name: Option<string>, io: Io): (r: OpResult)
    ensures name.None? ==> r == OpResult(Threw, GetCommands(st, g, io.readOk).st)
    ensures name.Some? && !Has(GetCommands(st, g, io.readOk).cmds, Text.Lower(name.value)) ==>
              r == OpResult(Returned(NotFound(name.value)), GetCommands(st, g, io.readOk).st)
    ensures name.Some? && Has(GetCommands(st, g, io.readOk).cmds, Text.Lower(name.value)) ==>
              var pre := GetCommands(st, g, io.readOk).cmds;
              && r.out == Returned(Removed(Text.Lower(name.value)))
              && g in r.st.cache
              && r.st.cache[g].Keys == pre.Keys - {Text.Lower(name.value)}
              && (forall k :: k in r.st.cache[g] ==> r.st.cache[g][k] == pre[k])
              && r.st.cache == GetCommands(st, g, io.readOk).st.cache[g := r.st.cache[g]]
              && (io.writeOk ==> r.st.store == st.store[g := r.st.cache[g]])
              && (!io.writeOk ==> r.st.store == st.store)
  {
    var pre := GetCommands(st, g, io.readOk);
    match name
    case None => OpResult(Threw, pre.st)
    case Some(n) =>
      var key := Text.Lower(n);
      if !Has(pre.cmds, key) then OpResult(Returned(NotFound(n)), pre.st)
      else OpResult(Returned(Removed(key)), Commit(pre.st, g, pre.cmds - {key}, io.writeOk))
  }

  /** A text answer and the state after it. */
  datatype Answer = Answer(text: string, st: State)

  /** `processCustomCommand(guildId, command)`: case-insensitive lookup. */
  function ProcessCustomCommand(st: State, g: GuildId, command: string, readOk: bool): (r: Answer)
    ensures r.st == GetCommands(st, g, readOk).st
    ensures var cmds := GetCommands(st, g, readOk).cmds;
            && (Has(cmds, Text.Lower(command)) ==> r.text == cmds[Text.Lower(command)])
            && (!Has(cmds, Text.Lower(command)) ==> r.text == InvalidCommand)
    ensures r.text != []
  {
    var key := Text.Lower(command);
    var pre := GetCommands(st, g, readOk);
    if Has(pre.cmds, key) then Answer(pre.cmds[key], pre.st)
    else Answer(InvalidCommand, pre.st)
  }

  /** `order` lists the keys of a map, each exactly once: the order in which
      `Object.keys` enumerates them. */
  predicate IsListing(order: seq<string>, keys: set<string>) {
    && (forall i, j :: 0 <= i < j < |order| ==> order[i] != order[j])
    && (forall k :: k in order ==> k in keys)
    && (forall k :: k in keys ==> k in order)
  }

  /** The lines `!name`, one per listed name. */
  function Bangs(order: seq<string>): (lines: seq<string>)
    ensures |lines| == |order|
    ensures forall i :: 0 <= i < |order| ==> lines[i] == ['!'] + order[i]
  {
    if |order| == 0 then [] else [['!'] + order[0]] + Bangs(order[1..])
  }

  /** A header line followed by a `!name` line per listed name. */
  function Listing(header: string, order: seq<string>): string {
    header + ['\n'] + Text.Join(Bangs(order), '\n')
  }

  /** The help message for a listing of names. */
  function HelpText(order: seq<string>): string {
    Listing(HelpHeader, order)
  }

  /** `helpCommand(guildId)`: the header and a `!name` line per name of the
      enumeration `order`, which is an input; `HelpLines` states what the text
      says when `order` lists the stored keys, as `Object.keys` does. */
  function HelpCommand(st: State, g: GuildId, readOk: bool, order: seq<string>): (r: Answer)
    ensures r.st == GetCommands(st, g, readOk).st
    ensures r.text == HelpText(order)
  {
    var pre := GetCommands(st, g, readOk);
    Answer(HelpText(order), pre.st)
  }

  /** Split at its line breaks, a listing is the header followed by one `!name`
      line per listed name (one empty line when there is none), as long as
      neither the header nor a name holds a line break. */
  lemma ListingLines(header: string, order: seq<string>)
    requires '\n' !in header
    requires forall i :: 0 <= i < |order| ==> '\n' !in order[i]
    ensures |order| == 0 ==> Text.SplitOn(Listing(header, order), '\n') == [header, []]
    ensures |order| > 0 ==> Text.SplitOn(Listing(header, order), '\n') == [header] + Bangs(order)
  {
    if |order| == 0 {
      var all: seq<string> := [header, []];
      assert Text.Join(all, '\n') == header + ['\n'] + [];
      assert Listing(header, order) == header + ['\n'] + [];
      Text.SplitOnOfJoin(all, '\n');
    } else {
      ListingLinesSome(header, order);
    }
  }

  lemma ListingLinesSome(header: string, order: seq<string>)
    requires '\n' !in header
    requires forall i :: 0 <= i < |order| ==> '\n' !in order[i]
    requires |order| > 0
    ensures Text.SplitOn(Listing(header, order), '\n') == [header] + Bangs(order)
  {
    var bangs := Bangs(order);
    var all := [header] + bangs;
    forall i | 0 <= i < |all| ensures '\n' !in all[i] {
      if i > 0 {
        assert all[i] == ['!'] + order[i - 1];
      }
    }
    Text.JoinCons(header, bangs, '\n');
    Text.SplitOnOfJoin(all, '\n');
  }

  /** A name is listed exactly when its `!name` line is among the lines. */
  lemma BangsMembership(order: seq<string>, k: string)
    ensures k in order <==> ['!'] + k in Bangs(order)
  {
    var bangs := Bangs(order);
    if ['!'] + k in bangs {
      var i :| 0 <= i < |bangs| && bangs[i] == ['!'] + k;
      assert order[i] == (['!'] + k)[1..];
    }
    if k in order {
      var i :| 0 <= i < |order| && order[i] == k;
      assert bangs[i] == ['!'] + k;
    }
  }

  /** A stored name can hold a line break: the tokenizer splits on spaces only,
      so `!add a<LF>b hi` stores the key `a<LF>b`. Help then shows it as two
      lines, `!a` and `b`, breaking the one-line-per-key shape. */
  lemma NameWithBreakSplitsHelp(st: State, g: GuildId, readOk: bool, x: string, y: string)
    requires IsListing([x + ['\n'] + y], GetCommands(st, g, readOk).cmds.Keys)
    requires '\n' !in x && '\n' !in y
    ensures Text.SplitOn(HelpCommand(st, g, readOk, [x + ['\n'] + y]).text, '\n') == [HelpHeader, ['!'] + x, y]
  {
    var key := x + ['\n'] + y;
    assert Bangs([key]) == [['!'] + key];
    assert Text.Join(Bangs([key]), '\n') == ['!'] + key;
    var lines := [HelpHeader, ['!'] + x, y];
    Text.JoinCons(['!'] + x, [y], '\n');
    Text.JoinCons(HelpHeader, [['!'] + x, y], '\n');
    assert lines == [HelpHeader] + [['!'] + x, y];
    assert HelpText([key]) == Text.Join(lines, '\n');
    assert forall k :: 0 <= k < |lines| ==> '\n' !in lines[k];
    Text.SplitOnOfJoin(lines, '\n');
  }

  /** The help text holds exactly one `!name` line per stored key when no name
      contains a line break (a name taken from chat text can). */
  lemma HelpLines(st: State, g: GuildId, readOk: bool, order: seq<string>)
    requires IsListing(order, GetCommands(st, g, readOk).cmds.Keys)
    requires forall k :: k in GetCommands(st, g, readOk).cmds ==> '\n' !in k
    ensures var lines := Text.SplitOn(HelpCommand(st, g, readOk, order).text, '\n');
            var cmds := GetCommands(st, g, readOk).cmds;
            && lines[0] == HelpHeader
            && (|cmds| > 0 ==> |lines| - 1 == |cmds|)
            && (|cmds| > 0 ==> forall k :: k in cmds <==> ['!'] + k in lines[1..])
            && (|cmds| == 0 ==> lines == [HelpHeader, []])
  {
    var cmds := GetCommands(st, g, readOk).cmds;
    ListingSize(order, cmds.Keys);
    assert |cmds| == |cmds.Keys|;
    assert '\n' !in HelpHeader;
    ListingLines(HelpHeader, order);
    forall k ensures k in cmds <==> ['!'] + k in Bangs(order) {
      BangsMembership(order, k);
    }
  }

  /** A duplicate-free listing is as long as the set it lists. */
  lemma {:induction false} ListingSize(order: seq<string>, keys: set<string>)
    requires IsListing(order, keys)
    ensures |order| == |keys|
    decreases |order|
  {
    if |order| > 0 {
      var rest := order[1..];
      assert IsListing(rest, keys - {order[0]}) by {
        forall k | k in rest ensures k in keys - {order[0]} {
          var i :| 0 <= i < |rest| && rest[i] == k;
          assert order[i + 1] == k && order[0] != order[i + 1];
        }
        forall k | k in keys - {order[0]} ensures k in rest {
          var i :| 0 <= i < |order| && order[i] == k;
          assert rest[i - 1] == k;
        }
      }
      ListingSize(rest, keys - {order[0]});
    }
  }

  /** The process restarts: the cache is gone, the files remain. */
  function Restart(st: State): (r: State)
    ensures r.cache == map[] && r.store == st.store
  {
    State(map[], st.store)
  }

  /** The cache agrees with the files for every cached guild. */
  predicate Coherent(st: State) {
    forall g :: g in st.cache ==> st.cache[g] == StoreView(st.store, g)
  }

  /** An add that is not refused can be looked up under any spelling of its name,
      in any later lookup that reads the same cache. */
  lemma AddThenLookup(st: State, g: GuildId, name: string, reply: string, io: Io, spelling: string, readOk: bool)
    requires Text.Lower(name) !in ReservedWords && name != [] && reply != []
    requires Text.Lower(spelling) == Text.Lower(name)
    ensures var after := AddCommand(st, g, Some(name), reply, io);
            && after.out == Returned(Added(Text.Lower(name), reply))
            && ProcessCustomCommand(after.st, g, spelling, readOk) == Answer(reply, after.st)
  {
  }

  /** When the file write succeeded, a restarted process that reads the file
      back answers the stored reply: the add survives the restart. */
  lemma AddSurvivesRestart(st: State, g: GuildId, name: string, reply: string, readOk: bool, spelling: string)
    requires Text.Lower(name) !in ReservedWords && name != [] && reply != []
    requires Text.Lower(spelling) == Text.Lower(name)
    ensures var after := AddCommand(st, g, Some(name), reply, Io(readOk, true));
            ProcessCustomCommand(Restart(after.st), g, spelling, true).text == reply
  {
    var after := AddCommand(st, g, Some(name), reply, Io(readOk, true));
    assert StoreView(Restart(after.st).store, g) == after.st.cache[g];
  }

  /** Removing a present name twice: the second call answers not-found and
      leaves everything as the first call left it. */
  lemma RemoveTwice(st: State, g: GuildId, name: string, io1: Io, io2: Io)
    requires Has(GetCommands(st, g, io1.readOk).cmds, Text.Lower(name))
    ensures var first := RemoveCommand(st, g, Some(name), io1);
            var second := RemoveCommand(first.st, g, Some(name), io2);
            && first.out == Returned(Removed(Text.Lower(name)))
            && second == OpResult(Returned(NotFound(name)), first.st)
  {
  }

  /** Whether the write succeeds changes neither the answer nor the cache of a
      mutating command: only the file differs. */
  lemma WriteDoesNotDecide(st: State, g: GuildId, name: Option<string>, reply: string, readOk: bool)
    ensures var ok := AddCommand(st, g, name, reply, Io(readOk, true));
            var bad := AddCommand(st, g, name, reply, Io(readOk, false));
            ok.out == bad.out && ok.st.cache == bad.st.cache && bad.st.store == st.store
    ensures var ok := EditCommand(st, g, name, reply, Io(readOk, true));
            var bad := EditCommand(st, g, name, reply, Io(readOk, false));
            ok.out == bad.out && ok.st.cache == bad.st.cache && bad.st.store == st.store
    ensures var ok := RemoveCommand(st, g, name, Io(readOk, true));
            var bad := RemoveCommand(st, g, name, Io(readOk, false));
            ok.out == bad.out && ok.st.cache == bad.st.cache && bad.st.store == st.store
  {
  }

  /** A cache hit never consults the file: the read bit is irrelevant. */
  lemma HitIgnoresRead(st: State, g: GuildId)
    requires g in st.cache
    ensures GetCommands(st, g, true) == GetCommands(st, g, false) == Loaded(st.cache[g], st)
  {
  }

  /** With every read and write succeeding, the cache keeps agreeing with the
      files through add, edit and remove. */
  lemma CoherentWhenIoSucceeds(st: State, g: GuildId, name: Option<string>, reply: string)
    requires Coherent(st)
    ensures Coherent(AddCommand(st, g, name, reply, Io(true, true)).st)
    ensures Coherent(EditCommand(st, g, name, reply, Io(true, true)).st)
    ensures Coherent(RemoveCommand(st, g, name, Io(true, true)).st)
  {
    var pre := GetCommands(st, g, true);
    assert Coherent(pre.st);
    if name.Some? {
      var key := Text.Lower(name.value);
      CommitKeepsCoherent(pre.st, g, pre.cmds[key := reply]);
      CommitKeepsCoherent(pre.st, g, pre.cmds - {key});
    }
  }

  /** A successful commit writes the same map to the cache and to the file. */
  lemma CommitKeepsCoherent(st: State, g: GuildId, cmds: Commands)
    requires Coherent(st)
    ensures Coherent(Commit(st, g, cmds, true))
  {
  }

  /** A failed write leaves the cache ahead of the file: the in-place edit of the
      cached map is not undone, so the two disagree until a later write. */
  lemma FailedWriteDiverges(st: State, g: GuildId, name: string, reply: string, readOk: bool)
    requires Text.Lower(name) !in ReservedWords && name != [] && reply != []
    requires g !in st.store
    ensures var after := AddCommand(st, g, Some(name), reply, Io(readOk, false));
            && after.out == Returned(Added(Text.Lower(name), reply))
            && !Coherent(after.st)
  {
    var after := AddCommand(st, g, Some(name), reply, Io(readOk, false));
    assert Text.Lower(name) in after.st.cache[g];
    assert StoreView(after.st.store, g) == map[];
  }

  /** Only `add` refuses the reserved names: a reserved name already in the
      guild's commands (from its file) can still be edited and removed. */
  lemma ReservedOnlyForAdd(st: State, g: GuildId, name: string, reply: string, io: Io)
    requires Text.Lower(name) in ReservedWords
    requires Has(GetCommands(st, g, io.readOk).cmds, Text.Lower(name)) && reply != []
    ensures AddCommand(st, g, Some(name), reply, io).out == Returned(ReservedName)
    ensures EditCommand(st, g, Some(name), reply, io).out == Returned(Edited(Text.Lower(name), reply))
    ensures RemoveCommand(st, g, Some(name), io).out == Returned(Removed(Text.Lower(name)))
  {
  }
}

=== FILE: text.dfy ===
/** The JavaScript string operations the command handler relies on:
    `toLowerCase`, `trim`, `split(/ +/)` and `join`. Strings are sequences of
    Unicode scalar values. */
module Text {

  /** An ASCII capital letter, the part of `toLowerCase` the model covers. */
  predicate IsUpper(c: char) {
    'A' <= c <= 'Z'
  }

  function ToLowerChar(c: char): (d: char)
    ensures !IsUpper(d)
    ensures IsUpper(c) ==> d as int == c as int + 32
    ensures !IsUpper(c) ==> d == c
  {
    if IsUpper(c) then (c as int + 32) as char else c
  }

  /** `s.toLowerCase()`, restricted to the ASCII letters. */
  function Lower(s: string): (r: string)
    ensures |r| == |s|
    ensures forall i :: 0 <= i < |s| ==> r[i] == ToLowerChar(s[i])
  {
    seq(|s|, i requires 0 <= i < |s| => ToLowerChar(s[i]))
  }

  /** A string that `toLowerCase` leaves as it is. */
  predicate IsLower(s: string) {
    forall i :: 0 <= i < |s| ==> !IsUpper(s[i])
  }

  /** Lower-casing produces a lower-case string, and a lower-case string is its own
      lower-case form; together these make `Lower` idempotent. */
  lemma LowerIsLower(s: string)
    ensures IsLower(Lower(s))
    ensures IsLower(s) <==> Lower(s) == s
    ensures Lower(Lower(s)) == Lower(s)
  {
    if IsLower(s) {
      assert Lower(s) == s;
    }
    if Lower(s) == s {
      forall i | 0 <= i < |s| ensures !IsUpper(s[i]) {
        assert s[i] == Lower(s)[i];
      }
    }
    assert IsLower(Lower(s));
  }

  /** The characters `String.prototype.trim` removes: WhiteSpace (tab, vertical
      tab, form feed, space, no-break space, byte order mark and the other Zs
      characters) and LineTerminator (LF, CR, LS, PS), as section 22.1.3.32 of
      ECMA-262 defines them. */
  predicate IsJsSpace(c: char) {
    || c == '\U{9}' || c == '\U{A}' || c == '\U{B}' || c == '\U{C}' || c == '\U{D}'
    || c == '\U{20}' || c == '\U{A0}' || c == '\U{1680}'
    || ('\U{2000}' <= c <= '\U{200A}')
    || c == '\U{2028}' || c == '\U{2029}' || c == '\U{202F}' || c == '\U{205F}'
    || c == '\U{3000}' || c == '\U{FEFF}'
  }

  predicate AllJsSpace(s: string) {
    forall i :: 0 <= i < |s| ==> IsJsSpace(s[i])
  }

  function TrimStart(s: string): (r: string)
    ensures |r| <= |s| && r == s[|s| - |r|..]
    ensures AllJsSpace(s[..|s| - |r|])
    ensures r == [] || !IsJsSpace(r[0])
  {
    if |s| > 0 && IsJsSpace(s[0]) then
      var r := TrimStart(s[1..]);
      assert s[1..][..|s| - 1 - |r|] == s[1..|s| - |r|];
      r
    else s
  }

  function TrimEnd(s: string): (r: string)
    ensures |r| <= |s| && r == s[..|r|]
    ensures AllJsSpace(s[|r|..])
    ensures r == [] || !IsJsSpace(r[|r| - 1])
  {
    if |s| > 0 && IsJsSpace(s[|s| - 1]) then
      var init := s[..|s| - 1];
      var r := TrimEnd(init);
      assert AllJsSpace(s[|r|..]) by {
        forall k | 0 <= k < |s| - |r| ensures IsJsSpace(s[|r|..][k]) {
          if k < |s| - 1 - |r| {
            assert s[|r|..][k] == init[|r|..][k];
          }
        }
      }
      assert r == s[..|r|];
      r
    else s
  }

  /** `r` is the part of `s` from `i` on with only white space around it. */
  predicate CutFrom(s: string, r: string, i: nat) {
    i + |r| <= |s| && r == s[i..i + |r|] && AllJsSpace(s[..i]) && AllJsSpace(s[i + |r|..])
  }

  /** `s.trim()`: the substring left after dropping the white space at both ends. */
  function Trim(s: string): (r: string)
    ensures exists i: nat :: CutFrom(s, r, i)
    ensures r == [] || (!IsJsSpace(r[0]) && !IsJsSpace(r[|r| - 1]))
  {
    var t := TrimStart(s);
    var r := TrimEnd(t);
    var i := |s| - |t|;
    assert CutFrom(s, r, i) by {
      assert r == s[i..i + |r|];
      assert s[i + |r|..] == t[|r|..];
    }
    assert r == [] || (!IsJsSpace(r[0]) && !IsJsSpace(r[|r| - 1])) by {
      if r != [] {
        assert r[0] == t[0];
      }
    }
    r
  }

  /** `trim` is `trimStart` followed by `trimEnd`. */
  lemma TrimIsEnds(s: string)
    ensures Trim(s) == TrimEnd(TrimStart(s))
  {
  }

  /** The index of the first `c` in `s`, or `|s|` when there is none. */
  function IndexOf(s: string, c: char): (k: nat)
    ensures k <= |s|
    ensures c !in s[..k]
    ensures k < |s| <==> c in s
    ensures k < |s| ==> s[k] == c
  {
    if |s| == 0 then 0
    else if s[0] == c then 0
    else
      var k := IndexOf(s[1..], c);
      assert s[..k + 1] == [s[0]] + s[1..][..k];
      k + 1
  }

  /** The end of the run of spaces that starts at `i`. */
  function SkipSpaces(s: string, i: nat): (j: nat)
    requires i <= |s|
    ensures i <= j <= |s|
    ensures forall k :: i <= k < j ==> s[k] == ' '
    ensures j == |s| || s[j] != ' '
    decreases |s| - i
  {
    if i < |s| && s[i] == ' ' then SkipSpaces(s, i + 1) else i
  }

  /** `s.split(/ +/)`: the pieces between maximal runs of spaces. A run at either
      end yields an empty piece there, and the empty string yields one empty piece. */
  function SplitRuns(s: string): (r: seq<string>)
    ensures |r| >= 1
    ensures forall k :: 0 <= k < |r| ==> ' ' !in r[k]
    ensures s != [] && s[0] != ' ' && s[|s| - 1] != ' ' ==> forall k :: 0 <= k < |r| ==> r[k] != []
    decreases |s|
  {
    var i := IndexOf(s, ' ');
    if i == |s| then [s]
    else [s[..i]] + SplitRuns(s[SkipSpaces(s, i)..])
  }

  /** `xs.join(sep)` for a one-character separator. */
  function Join(xs: seq<string>, sep: char): string
  {
    if |xs| == 0 then []
    else if |xs| == 1 then xs[0]
    else xs[0] + [sep] + Join(xs[1..], sep)
  }

  /** Joining non-empty words yields the empty string only for no words, so
      `args.join(' ')` is falsy exactly when nothing follows. */
  lemma {:induction false} JoinEmpty(xs: seq<string>, sep: char)
    requires forall k :: 0 <= k < |xs| ==> xs[k] != []
    ensures Join(xs, sep) == [] <==> |xs| == 0
  {
    if |xs| > 1 {
      JoinEmpty(xs[1..], sep);
    }
  }

  /** A word, one space and a remainder that starts with a non-space split as
      the word followed by the remainder's pieces. */
  lemma SplitRunsCons(w: string, rest: string)
    requires ' ' !in w
    requires rest != [] && rest[0] != ' '
    ensures SplitRuns(w + [' '] + rest) == [w] + SplitRuns(rest)
  {
    var s := w + [' '] + rest;
    IndexOfAppend(w, [' '] + rest, ' ');
    assert s[|w| + 1] == rest[0];
    assert SkipSpaces(s, |w|) == |w| + 1;
    assert s[..|w|] == w;
    assert s[|w| + 1..] == rest;
  }

  /** Words joined by single spaces split back into the same words: the
      tokenizer undoes `join(' ')` on space-free words. */
  lemma {:induction false} SplitRunsOfJoin(xs: seq<string>)
    requires |xs| >= 1
    requires forall k :: 0 <= k < |xs| ==> xs[k] != [] && ' ' !in xs[k]
    ensures SplitRuns(Join(xs, ' ')) == xs
  {
    if |xs| == 1 {
      assert IndexOf(xs[0], ' ') == |xs[0]|;
    } else {
      var tail := xs[1..];
      assert forall k :: 0 <= k < |tail| ==> tail[k] == xs[k + 1];
      SplitRunsOfJoin(tail);
      JoinHead(tail, ' ');
      var rest := Join(tail, ' ');
      assert rest[..|tail[0]|] == tail[0];
      assert rest[0] == tail[0][0];
      SplitRunsCons(xs[0], rest);
      assert xs == [xs[0]] + tail;
    }
  }

  /** A string without double spaces is rebuilt by joining its pieces: the
      tokenizer loses nothing but repeated spaces. */
  lemma {:induction false} JoinOfSplitRuns(s: string)
    requires NoDoubleSpace(s)
    ensures Join(SplitRuns(s), ' ') == s
    decreases |s|
  {
    var i := IndexOf(s, ' ');
    if i == |s| {
      assert SplitRuns(s) == [s];
    } else {
      var t := s[i + 1..];
      SplitRunsStep(s, i);
      assert NoDoubleSpace(t) by {
        forall k | 0 <= k < |t| - 1 ensures !DoubleSpaceAt(t, k) {
          assert !DoubleSpaceAt(s, i + 1 + k);
        }
      }
      JoinOfSplitRuns(t);
      JoinCons(s[..i], SplitRuns(t), ' ');
      SplitAt(s, i);
    }
  }

  /** Two spaces in a row start at index `k`. */
  predicate DoubleSpaceAt(s: string, k: int) {
    0 <= k < |s| - 1 && s[k] == ' ' && s[k + 1] == ' '
  }

  predicate NoDoubleSpace(s: string) {
    forall k :: 0 <= k < |s| ==> !DoubleSpaceAt(s, k)
  }

  lemma SplitAt(s: string, i: nat)
    requires i < |s|
    ensures s == s[..i] + [s[i]] + s[i + 1..]
  {
  }

  /** Unfolds `SplitRuns` at a single space. */
  lemma SplitRunsStep(s: string, i: nat)
    requires i == IndexOf(s, ' ') < |s|
    requires NoDoubleSpace(s)
    ensures SplitRuns(s) == [s[..i]] + SplitRuns(s[i + 1..])
  {
    assert !DoubleSpaceAt(s, i);
    assert SkipSpaces(s, i) == i + 1;
  }

  lemma JoinCons(w: string, xs: seq<string>, sep: char)
    requires |xs| >= 1
    ensures Join([w] + xs, sep) == w + [sep] + Join(xs, sep)
  {
    assert ([w] + xs)[1..] == xs;
  }

  /** The first word of a join is its prefix. */
  lemma {:induction false} JoinHead(xs: seq<string>, sep: char)
    requires |xs| >= 1
    ensures |Join(xs, sep)| >= |xs[0]|
    ensures Join(xs, sep)[..|xs[0]|] == xs[0]
  {
    if |xs| > 1 {
      assert Join(xs, sep) == xs[0] + ([sep] + Join(xs[1..], sep));
    }
  }

  lemma IndexOfAppend(a: string, b: string, c: char)
    requires c !in a
    requires |b| > 0 && b[0] == c
    ensures IndexOf(a + b, c) == |a|
  {
    assert (a + b)[|a|] == c;
    assert (a + b)[..|a|] == a;
  }

  /** `s.split(c)` for a one-character separator: every occurrence separates. */
  function SplitOn(s: string, c: char): (r: seq<string>)
    ensures |r| >= 1
    ensures forall k :: 0 <= k < |r| ==> c !in r[k]
    decreases |s|
  {
    var i := IndexOf(s, c);
    if i == |s| then [s] else [s[..i]] + SplitOn(s[i + 1..], c)
  }

  /** Lines that hold no separator split back out of their join. */
  lemma {:induction false} SplitOnOfJoin(xs: seq<string>, c: char)
    requires |xs| >= 1
    requires forall k :: 0 <= k < |xs| ==> c !in xs[k]
    ensures SplitOn(Join(xs, c), c) == xs
    decreases |xs|
  {
    var w := xs[0];
    assert c !in w;
    if |xs| == 1 {
      assert IndexOf(w, c) == |w|;
      assert Join(xs, c) == w;
    } else {
      var tail := xs[1..];
      assert forall k :: 0 <= k < |tail| ==> tail[k] == xs[k + 1];
      SplitOnOfJoin(tail, c);
      JoinCons(w, tail, c);
      assert xs == [w] + tail;
      SplitOnCons(w, Join(tail, c), c);
    }
  }

  /** A separator-free word, the separator and a remainder split as the word
      followed by the remainder's pieces. */
  lemma SplitOnCons(w: string, rest: string, c: char)
    requires c !in w
    ensures SplitOn(w + [c] + rest, c) == [w] + SplitOn(rest, c)
  {
    var s := w + [c] + rest;
    IndexOfAppend(w, [c] + rest, c);
    assert s == w + ([c] + rest);
    assert s[..|w|] == w;
    assert s[|w| + 1..] == rest;
  }
  /** `n` spaces. */
  function Spaces(n: nat): (r: string)
    ensures |r| == n
    ensures forall i :: 0 <= i < n ==> r[i] == ' '
  {
    if n == 0 then [] else [' '] + Spaces(n - 1)
  }

  /** The string with every run of spaces shortened to a single space. */
  function Squeeze(s: string): (r: string)
    ensures |r| <= |s|
    ensures r == [] <==> s == []
    ensures r != [] ==> r[0] == s[0]
    ensures NoDoubleSpace(r)
    decreases |s|
  {
    if |s| == 0 then []
    else if |s| >= 2 && s[0] == ' ' && s[1] == ' ' then Squeeze(s[1..])
    else
      var t := Squeeze(s[1..]);
      var r := [s[0]] + t;
      forall k | 0 <= k < |r| ensures !DoubleSpaceAt(r, k) {
        if k == 0 && |r| >= 2 {
          assert r[1] == t[0] == s[1];
        } else if k > 0 {
          assert !DoubleSpaceAt(t, k - 1);
        }
      }
      r
  }

  /** Squeezing passes over a word without spaces unchanged. */
  lemma {:induction false} SqueezeWord(w: string, t: string)
    requires ' ' !in w
    ensures Squeeze(w + t) == w + Squeeze(t)
    decreases |w|
  {
    if |w| == 0 {
      assert w + t == t;
    } else {
      assert (w + t)[0] == w[0] && (w + t)[1..] == w[1..] + t;
      SqueezeWord(w[1..], t);
    }
  }

  /** Squeezing shortens a run of spaces in front of a non-space to one space. */
  lemma {:induction false} SqueezeRun(n: nat, t: string)
    requires t == [] || t[0] != ' '
    ensures Squeeze(Spaces(n + 1) + t) == [' '] + Squeeze(t)
    decreases n
  {
    var s := Spaces(n + 1) + t;
    if n == 0 {
      assert s[1..] == t;
    } else {
      assert s[1..] == Spaces(n) + t;
      SqueezeRun(n - 1, t);
    }
  }

  /** A string cut at its first run of spaces. */
  lemma RunAt(s: string, i: nat, j: nat)
    requires i == IndexOf(s, ' ') < |s|
    requires j == SkipSpaces(s, i)
    ensures i < j
    ensures ' ' !in s[..i]
    ensures s[j..] == [] || s[j..][0] != ' '
    ensures s == s[..i] + Spaces(j - i) + s[j..]
  {
    var run := s[i..j];
    assert forall k :: 0 <= k < |run| ==> run[k] == ' ';
    assert run == Spaces(j - i);
    assert s == s[..i] + run + s[j..];
  }

  /** A space-free word, a run of spaces and a remainder that does not start
      with a space split as the word followed by the remainder's pieces. */
  lemma SplitRunsRun(w: string, n: nat, rest: string)
    requires ' ' !in w
    requires rest == [] || rest[0] != ' '
    ensures SplitRuns(w + Spaces(n + 1) + rest) == [w] + SplitRuns(rest)
  {
    var s := w + Spaces(n + 1) + rest;
    assert s == w + (Spaces(n + 1) + rest);
    IndexOfAppend(w, Spaces(n + 1) + rest, ' ');
    var j := SkipSpaces(s, |w|);
    assert forall k :: |w| <= k < |w| + n + 1 ==> s[k] == Spaces(n + 1)[k - |w|];
    assert |w| + n + 1 == |s| || s[|w| + n + 1] == rest[0];
    assert j == |w| + n + 1;
    assert s[..|w|] == w;
    assert s[j..] == rest;
  }

  /** Squeezing a space-free word, a run of spaces and a remainder that does
      not start with a space keeps the word and one space. */
  lemma SqueezeCut(w: string, n: nat, rest: string)
    requires ' ' !in w
    requires rest == [] || rest[0] != ' '
    ensures Squeeze(w + Spaces(n + 1) + rest) == w + [' '] + Squeeze(rest)
  {
    assert w + Spaces(n + 1) + rest == w + (Spaces(n + 1) + rest);
    SqueezeWord(w, Spaces(n + 1) + rest);
    SqueezeRun(n, rest);
  }

  /** A string with no space is its own squeezed form and its only piece. */
  lemma NoSpace(s: string)
    requires IndexOf(s, ' ') == |s|
    ensures Squeeze(s) == s
    ensures SplitRuns(s) == [s]
  {
    SqueezeWord(s, []);
    assert s + [] == s;
  }

  /** Cutting a string at its first run of spaces: the word before the run
      is the first piece, and squeezing turns the run into one space. */
  lemma CutAtRun(s: string) returns (w: string, rest: string)
    requires IndexOf(s, ' ') < |s|
    ensures |rest| < |s|
    ensures SplitRuns(s) == [w] + SplitRuns(rest)
    ensures Squeeze(s) == w + [' '] + Squeeze(rest)
    ensures SplitRuns(Squeeze(s)) == [w] + SplitRuns(Squeeze(rest))
  {
    var i := IndexOf(s, ' ');
    var j := SkipSpaces(s, i);
    w, rest := s[..i], s[j..];
    assert SplitRuns(s) == [w] + SplitRuns(rest);
    assert ' ' !in w && (rest == [] || rest[0] != ' ') by {
      RunAt(s, i, j);
    }
    assert Squeeze(s) == w + [' '] + Squeeze(rest) by {
      RunAt(s, i, j);
      SqueezeCut(w, j - i - 1, rest);
    }
    assert SplitRuns(w + [' '] + Squeeze(rest)) == [w] + SplitRuns(Squeeze(rest)) by {
      assert Spaces(1) == [' '];
      SplitRunsRun(w, 0, Squeeze(rest));
    }
  }

  /** Joining the pieces of `split(/ +/)` with single spaces gives the string
      with every run of spaces squeezed to one: the tokenizer loses exactly the
      repeated spaces. */
  lemma {:induction false} JoinSplitRunsIsSqueeze(s: string)
    ensures Join(SplitRuns(s), ' ') == Squeeze(s)
    decreases |s|
  {
    if IndexOf(s, ' ') == |s| {
      NoSpace(s);
    } else {
      var w, rest := CutAtRun(s);
      JoinSplitRunsIsSqueeze(rest);
      JoinCons(w, SplitRuns(rest), ' ');
    }
  }

  /** A run of spaces separates like a single space: `split(/ +/)` gives the
      same pieces for a string and for its squeezed form. */
  lemma {:induction false} SplitRunsSqueeze(s: string)
    ensures SplitRuns(Squeeze(s)) == SplitRuns(s)
    decreases |s|
  {
    if IndexOf(s, ' ') == |s| {
      NoSpace(s);
    } else {
      var w, rest := CutAtRun(s);
      SplitRunsSqueeze(rest);
    }
  }

  /** Words separated by runs of spaces: `gaps[k] + 1` spaces follow word `k`. */
  function Spread(xs: seq<string>, gaps: seq<nat>): (r: string)
    requires |xs| <= |gaps| + 1
    ensures |xs| >= 1 ==> |r| >= |xs[0]| && r[..|xs[0]|] == xs[0]
  {
    if |xs| == 0 then []
    else if |xs| == 1 then xs[0]
    else
      var r := xs[0] + Spaces(gaps[0] + 1) + Spread(xs[1..], gaps[1..]);
      assert r == xs[0] + (Spaces(gaps[0] + 1) + Spread(xs[1..], gaps[1..]));
      r
  }

  /** With every gap zero, a spread is the single-space join. */
  lemma {:induction false} SpreadSingle(xs: seq<string>, gaps: seq<nat>)
    requires |xs| <= |gaps| + 1
    requires forall k :: 0 <= k < |gaps| ==> gaps[k] == 0
    ensures Spread(xs, gaps) == Join(xs, ' ')
  {
    if |xs| > 1 {
      SpreadSingle(xs[1..], gaps[1..]);
      assert Spaces(gaps[0] + 1) == [' '];
    }
  }

  /** Non-empty space-free words separated by runs of spaces of any lengths
      split back into exactly those words. */
  lemma {:induction false} SplitRunsOfSpread(xs: seq<string>, gaps: seq<nat>)
    requires 1 <= |xs| <= |gaps| + 1
    requires forall k :: 0 <= k < |xs| ==> xs[k] != [] && ' ' !in xs[k]
    ensures SplitRuns(Spread(xs, gaps)) == xs
  {
    if |xs| == 1 {
      assert IndexOf(xs[0], ' ') == |xs[0]|;
    } else {
      var tail := xs[1..];
      assert forall k :: 0 <= k < |tail| ==> tail[k] == xs[k + 1];
      SplitRunsOfSpread(tail, gaps[1..]);
      SpreadStep(xs, gaps);
      assert xs == [xs[0]] + tail;
    }
  }

  /** Splitting a spread of at least two words takes off the first word. */
  lemma SpreadStep(xs: seq<string>, gaps: seq<nat>)
    requires 2 <= |xs| <= |gaps| + 1
    requires ' ' !in xs[0] && xs[1] != [] && xs[1][0] != ' '
    ensures SplitRuns(Spread(xs, gaps)) == [xs[0]] + SplitRuns(Spread(xs[1..], gaps[1..]))
  {
    var rest := Spread(xs[1..], gaps[1..]);
    assert rest != [] && rest[0] != ' ' by {
      assert rest[0] == rest[..|xs[1]|][0] == xs[1][0];
    }
    assert Spread(xs, gaps) == xs[0] + Spaces(gaps[0] + 1) + rest;
    SplitRunsRun(xs[0], gaps[0], rest);
  }
}

=== FILE: tracker.dfy ===
/** The two message-id trackers of Discord-BOT/index.js (`botMessages`,
    `userCommandMessages`) and the bulk clean-up `clearBotMessages` of
    Discord-BOT/features/customCommands.js. */
module Tracker {
  import opened Types

  /** Ids of messages the bot posted and of users' `!` commands. */
  datatype Tracked = Tracked(bot: set<MessageId>, user: set<MessageId>)

  /** `channel.messages.fetch({ limit: 100 })`. */
  const FetchLimit: nat := 100

  /** The platform's side of one clean-up: whether the fetch succeeds, the
      channel's history (newest first), and whether `bulkDelete` succeeds. */
  datatype ClearIo = ClearIo(fetchOk: bool, history: seq<MessageId>, bulkOk: bool)

  predicate IsTracked(t: Tracked, id: MessageId) {
    id in t.bot || id in t.user
  }

  /** The most recent messages a fetch returns. */
  function Window(history: seq<MessageId>): (w: seq<MessageId>)
    ensures |w| <= FetchLimit
    ensures |w| <= |history| && w == history[..|w|]
    ensures |history| <= FetchLimit ==> w == history
    ensures |history| > FetchLimit ==> |w| == FetchLimit
  {
    if |history| <= FetchLimit then history else history[..FetchLimit]
  }

  /** `messages.filter(m => botMessages.has(m.id) || userCommandMessages.has(m.id))`. */
  function TrackedIn(window: seq<MessageId>, t: Tracked): (d: seq<MessageId>)
    ensures |d| <= |window|
    ensures forall x :: x in d <==> x in window && IsTracked(t, x)
  {
    if |window| == 0 then []
    else
      var rest := TrackedIn(window[1..], t);
      assert forall x :: x in window <==> x == window[0] || x in window[1..];
      if IsTracked(t, window[0]) then [window[0]] + rest else rest
  }

  /** `messagesToDelete.forEach(m => { botMessages.delete(m.id); userCommandMessages.delete(m.id) })`. */
  function Forget(t: Tracked, ids: seq<MessageId>): (r: Tracked)
    ensures forall x :: x in r.bot <==> x in t.bot && x !in ids
    ensures forall x :: x in r.user <==> x in t.user && x !in ids
    decreases |ids|
  {
    if |ids| == 0 then t
    else
      assert forall x :: x in ids <==> x == ids[0] || x in ids[1..];
      Forget(Tracked(t.bot - {ids[0]}, t.user - {ids[0]}), ids[1..])
  }

  /** `clearBotMessages(channel, botMessages, userCommandMessages)`: the tracked
      messages among the last 100 are bulk-deleted and forgotten; a failed fetch
      or bulk delete is swallowed and forgets nothing. */
  function ClearBotMessages(t: Tracked, io: ClearIo): (r: Tracked)
    ensures !io.fetchOk || !io.bulkOk ==> r == t
    ensures io.fetchOk && io.bulkOk ==>
              && (forall x :: x in r.bot <==> x in t.bot && x !in Window(io.history))
              && (forall x :: x in r.user <==> x in t.user && x !in Window(io.history))
    ensures r.bot <= t.bot && r.user <= t.user
  {
    if !io.fetchOk then t
    else
      var doomed := TrackedIn(Window(io.history), t);
      if !io.bulkOk then t else Forget(t, doomed)
  }

  /** The ids the bulk delete is asked to remove. */
  function Deleted(t: Tracked, io: ClearIo): (d: set<MessageId>)
    ensures io.fetchOk && io.bulkOk ==> forall x :: x in d <==> x in Window(io.history) && IsTracked(t, x)
    ensures !(io.fetchOk && io.bulkOk) ==> d == {}
  {
    if io.fetchOk && io.bulkOk then
      var doomed := TrackedIn(Window(io.history), t);
      set x | x in doomed
    else {}
  }

  /** Both trackers lose exactly the deleted ids; messages older than the window
      stay tracked however old they are. */
  lemma ClearLosesExactlyDeleted(t: Tracked, io: ClearIo)
    ensures ClearBotMessages(t, io).bot == t.bot - Deleted(t, io)
    ensures ClearBotMessages(t, io).user == t.user - Deleted(t, io)
    ensures forall x :: x !in Window(io.history) ==>
              (x in ClearBotMessages(t, io).bot <==> x in t.bot) && (x in ClearBotMessages(t, io).user <==> x in t.user)
  {
  }
}

=== FILE: types.dfy ===
/** Shared vocabulary of the model: identifiers handed out by the chat platform,
    an optional value (JavaScript `undefined`/`null`), and the outcome of a call
    that may throw. */
module Types {

  /** A guild (tenant) identifier. */
  type GuildId = string

  /** A Discord message identifier (a snowflake, kept opaque). */
  type MessageId = nat

  /** A Discord channel identifier (a snowflake, kept opaque). */
  type ChannelId = nat

  /** A value that may be missing: `undefined` or `null` on the JavaScript side. */
  datatype Option<+T> = None | Some(value: T)

  /** The result of an `async` call: it either returns a value or throws. */
  datatype Outcome<+T> = Returned(value: T) | Threw
}

=== FILE: voice.dfy ===
/** The `VoiceStateUpdate` handler of Discord-BOT/index.js: entering the lobby
    channel provisions a personal voice channel, and leaving a provisioned
    channel in which exactly one member remains tears it down. `live` is the
    set `dynamicVoiceChannels`; each platform call's success and the member
    count read are inputs. */
module Voice {
  import opened Types

  /** A member's voice channel before and after the update (`None` when the
      member is not in a voice channel). */
  datatype Update = Update(before: Option<ChannelId>, after: Option<ChannelId>)

  /** The platform's side of one update: the id of the channel
      `guild.channels.create` makes (`None` when it throws), whether
      `member.voice.setChannel` succeeds, the old channel's member count when the
      teardown rule reads it, and whether `channel.delete` succeeds. */
  datatype VoiceIo = VoiceIo(created: Option<ChannelId>, moveOk: bool, oldMembers: nat, deleteOk: bool)

  /** The live set after the update and the channel calls that took effect:
      the channel created, the channel deleted, and whether the handler threw. */
  datatype Step = Step(live: set<ChannelId>, made: Option<ChannelId>, deleted: Option<ChannelId>, threw: bool)

  /** The provisioning rule fires: the member arrives in the lobby from elsewhere. */
  predicate Provisions(lobby: ChannelId, u: Update) {
    u.after == Some(lobby) && u.before != Some(lobby)
  }

  /** The teardown rule fires: the member left a tracked channel in which the
      count read is exactly one, whoever that one is. */
  predicate TearsDown(live: set<ChannelId>, u: Update, members: nat) {
    u.before.Some? && u.before.value in live && u.after != u.before && members == 1
  }

  /** The provisioning rule alone. A throwing create or move aborts the handler;
      a move that throws after a successful create leaves that channel made but
      untracked. */
  function Provision(live: set<ChannelId>, lobby: ChannelId, u: Update, io: VoiceIo): (r: Step)
    ensures r.deleted == None
    ensures !Provisions(lobby, u) ==> r == Step(live, None, None, false)
    ensures Provisions(lobby, u) && io.created.None? ==> r == Step(live, None, None, true)
    ensures Provisions(lobby, u) && io.created.Some? ==> r.made == io.created
    ensures Provisions(lobby, u) && io.created.Some? && !io.moveOk ==> r.live == live && r.threw
    ensures Provisions(lobby, u) && io.created.Some? && io.moveOk ==> r.live == live + {io.created.value} && !r.threw
  {
    if !Provisions(lobby, u) then Step(live, None, None, false)
    else match io.created
      case None => Step(live, None, None, true)
      case Some(c) =>
        if !io.moveOk then Step(live, Some(c), None, true)
        else Step(live + {c}, Some(c), None, false)
  }

  /** The teardown rule alone. A failed delete is caught and keeps the channel
      tracked. */
  function Teardown(live: set<ChannelId>, u: Update, io: VoiceIo): (r: Step)
    ensures r.made == None && !r.threw
    ensures !TearsDown(live, u, io.oldMembers) ==> r.live == live && r.deleted == None
    ensures TearsDown(live, u, io.oldMembers) && io.deleteOk ==>
              r.live == live - {u.before.value} && r.deleted == u.before
    ensures TearsDown(live, u, io.oldMembers) && !io.deleteOk ==> r.live == live && r.deleted == None
  {
    if TearsDown(live, u, io.oldMembers) && io.deleteOk then Step(live - {u.before.value}, None, u.before, false)
    else Step(live, None, None, false)
  }

  /** The whole handler: provisioning first, then teardown on the updated set,
      unless provisioning threw. */
  function VoiceStateUpdate(live: set<ChannelId>, lobby: ChannelId, u: Update, io: VoiceIo): (r: Step)
    ensures r.live <= live + (if r.made.Some? then {r.made.value} else {})
    ensures r.made.Some? <==> Provisions(lobby, u) && io.created.Some?
    // the channel reported made is the one the create returned
    ensures r.made == (if Provisions(lobby, u) then io.created else None)
    ensures r.threw <==> Provisions(lobby, u) && (io.created.None? || !io.moveOk)
    ensures r.threw ==> r.live == live && r.deleted == None
    ensures r.deleted.Some? ==> r.deleted == u.before && u.before.value !in r.live && io.oldMembers == 1
    ensures u.before == u.after ==> r.deleted == None
    // the live set is the old one with the made channel added and the deleted one removed
    ensures !r.threw ==> r.live == (live + (if r.made.Some? then {r.made.value} else {}))
                                   - (if r.deleted.Some? then {r.deleted.value} else {})
    // once provisioning has settled, a teardown that fires and whose delete succeeds deletes
    ensures !r.threw && TearsDown(Provision(live, lobby, u, io).live, u, io.oldMembers) && io.deleteOk ==>
              r.deleted == u.before
    // and conversely a channel is deleted only by that rule, with a successful delete
    ensures r.deleted.Some? ==> io.deleteOk && TearsDown(Provision(live, lobby, u, io).live, u, io.oldMembers)
  {
    var p := Provision(live, lobby, u, io);
    if p.threw then p
    else
      var t := Teardown(p.live, u, io);
      Step(t.live, p.made, t.deleted, false)
  }

  /** Provisioning never looks at the live set: re-entering the lobby while a
      channel of the member's is still live provisions another one. */
  lemma ReentryDuplicates(live1: set<ChannelId>, live2: set<ChannelId>, lobby: ChannelId, u: Update, io: VoiceIo)
    requires u.before != Some(lobby) && u.after == Some(lobby)
    requires io.created.Some? && io.moveOk && u.before != io.created
    ensures VoiceStateUpdate(live1, lobby, u, io).made == VoiceStateUpdate(live2, lobby, u, io).made == io.created
    ensures io.created.value in VoiceStateUpdate(live1, lobby, u, io).live
  {
  }

  /** A move from a tracked channel into the lobby fires both rules: the new
      channel joins the live set and the left one leaves it. */
  lemma LeaveIntoLobby(live: set<ChannelId>, lobby: ChannelId, left: ChannelId, made: ChannelId)
    requires left in live && left != lobby && made != left
    ensures var r := VoiceStateUpdate(live, lobby, Update(Some(left), Some(lobby)), VoiceIo(Some(made), true, 1, true));
            r.live == live + {made} - {left} && r.made == Some(made) && r.deleted == Some(left)
  {
  }

  /** A failed delete keeps the channel tracked: nothing is deleted and the
      channel the member left stays live. */
  lemma FailedDeleteKeeps(live: set<ChannelId>, lobby: ChannelId, u: Update, io: VoiceIo)
    requires !io.deleteOk && u.before.Some? && u.before.value in live
    ensures var r := VoiceStateUpdate(live, lobby, u, io);
            r.deleted == None && u.before.value in r.live
  {
  }

  /** The bot has one voice connection, so provisioning a second channel moves
      it out of the first. Its own update leaves the first channel with the
      member still inside, a count of one, so that channel is deleted with the
      member in it. */
  lemma BotMoveEvicts(live: set<ChannelId>, lobby: ChannelId, first: ChannelId, second: ChannelId)
    requires first in live && first != second && second != lobby
    ensures VoiceStateUpdate(live, lobby, Update(Some(first), Some(second)), VoiceIo(None, false, 1, true))
            == Step(live - {first}, None, Some(first), false)
  {
  }

  /** Provisioning fires exactly on arrival in the lobby from elsewhere, and on a
      successful create and move the live set gains exactly the new channel. */
  lemma ProvisionIff(live: set<ChannelId>, lobby: ChannelId, u: Update, io: VoiceIo)
    requires io.created.Some? && io.moveOk
    requires io.created.value !in live
    requires !TearsDown(live + {io.created.value}, u, io.oldMembers)
    ensures var r := VoiceStateUpdate(live, lobby, u, io);
            && (r.made.Some? <==> u.after == Some(lobby) && u.before != Some(lobby))
            && (r.made.Some? ==> r.live == live + {io.created.value} && |r.live| == |live| + 1)
            && (r.made.None? ==> r.live == live)
  {
  }

  /** A run of updates, each with its platform answers. */
  function Run(live: set<ChannelId>, lobby: ChannelId, us: seq<Update>, ios: seq<VoiceIo>): (steps: seq<Step>)
    requires |us| == |ios|
    ensures |steps| == |us|
    decreases |us|
  {
    if |us| == 0 then []
    else
      var s := VoiceStateUpdate(live, lobby, us[0], ios[0]);
      [s] + Run(s.live, lobby, us[1..], ios[1..])
  }

  /** No channel is deleted by two steps. */
  predicate DeletesOnce(steps: seq<Step>) {
    forall i, j :: 0 <= i < j < |steps| && steps[i].deleted.Some? ==> steps[j].deleted != steps[i].deleted
  }

  /** When every created id is new (not live at the start and not created
      before in the run), no channel is deleted twice in a run. */
  lemma {:induction false} NoDoubleDelete(live: set<ChannelId>, lobby: ChannelId, us: seq<Update>, ios: seq<VoiceIo>)
    requires |us| == |ios|
    requires forall i :: 0 <= i < |ios| && ios[i].created.Some? ==> ios[i].created.value !in live
    requires forall i, j :: 0 <= i < j < |ios| && ios[i].created.Some? && ios[j].created.Some? ==>
               ios[i].created.value != ios[j].created.value
    ensures DeletesOnce(Run(live, lobby, us, ios))
    decreases |us|
  {
    if |us| > 0 {
      var steps := Run(live, lobby, us, ios);
      var s := steps[0];
      var rest := Run(s.live, lobby, us[1..], ios[1..]);
      assert steps == [s] + rest;
      var ios' := ios[1..];
      assert forall i :: 0 <= i < |ios'| ==> ios'[i] == ios[i + 1];
      assert forall i :: 0 <= i < |ios'| && ios'[i].created.Some? ==> ios'[i].created.value !in s.live by {
        forall i | 0 <= i < |ios'| && ios'[i].created.Some? ensures ios'[i].created.value !in s.live {
          var c := ios[i + 1].created.value;
          assert c !in live;
          if s.made.Some? {
            assert s.made == ios[0].created;
            assert c != s.made.value;
          }
        }
      }
      NoDoubleDelete(s.live, lobby, us[1..], ios');
      assert DeletesOnce(rest);
      if s.deleted.Some? {
        var d := s.deleted.value;
        assert d !in s.live;
        StaysGone(s.live, lobby, us[1..], ios', d);
      }
      forall i, j | 0 <= i < j < |steps| && steps[i].deleted.Some? ensures steps[j].deleted != steps[i].deleted {
        if i > 0 {
          assert steps[i] == rest[i - 1] && steps[j] == rest[j - 1];
        } else {
          assert steps[j] == rest[j - 1];
          StaysGone(s.live, lobby, us[1..], ios', s.deleted.value);
          assert rest[j - 1].deleted != s.deleted;
        }
      }
    }
  }

  /** A channel that is not live and never created again is never deleted. */
  lemma {:induction false} StaysGone(live: set<ChannelId>, lobby: ChannelId, us: seq<Update>, ios: seq<VoiceIo>, d: ChannelId)
    requires |us| == |ios|
    requires d !in live
    requires forall i :: 0 <= i < |ios| && ios[i].created.Some? ==> ios[i].created.value != d
    ensures forall j :: 0 <= j < |us| ==> Run(live, lobby, us, ios)[j].deleted != Some(d)
    decreases |us|
  {
    if |us| > 0 {
      var steps := Run(live, lobby, us, ios);
      var s := steps[0];
      assert d !in s.live;
      var ios' := ios[1..];
      assert forall i :: 0 <= i < |ios'| ==> ios'[i] == ios[i + 1];
      StaysGone(s.live, lobby, us[1..], ios', d);
      var rest := Run(s.live, lobby, us[1..], ios');
      assert steps == [s] + rest;
      forall j | 0 <= j < |us| ensures steps[j].deleted != Some(d) {
        if j > 0 {
          assert steps[j] == rest[j - 1];
        }
      }
    }
  }
}
